=== FILE: README.md ===
# Leftover-data registry of harbour-mashka, modelled in Dafny

Mashka is a Sailfish OS application that finds the configuration, cache and
local-data directories that applications leave behind and deletes them on
request. Its core is the `MModel` list model in `src/mmodel.cpp`: a registry
of application entries kept as an ordered name list (`m_names`) beside a
name-to-entry map (`m_entries`), with aggregate totals. This project models:

- `getSize`, `processKnownPaths` and `MModel::removePaths` over an abstract
  filesystem (`storage.dfy`, `entries.dfy`);
- `MModel::clearEntry` (`entries.dfy`);
- `MModel::calculateTotal`, against an order-free reference sum
  (`totals.dfy`);
- `MModel::deleteDataImpl` and `MModel::deleteUnusedDataImpl`, with the
  notifications they emit as an event log (`registry.dfy`);
- `MModel::resetImpl`: the known-apps pass, the `harbour-*` directory
  search under the config, cache and local-data roots, and the
  `.desktop`-file pass (`discovery.dfy`, `install.dfy`, `rescan.dfy`);
- `MModel::rowCount` and `MModel::data`, including the title fallback and
  the sort key (`rowview.dfy`).

The filesystem is a map from path to a directory (with the byte total of
the files beneath it), a regular file (with its length) or anything else.
Whether a removal succeeds is an input: the set of `locked` paths. The
known-apps table, the exclusion pattern, the three search roots, what each
root lists, the applications directories and the values of each `.desktop`
file are inputs too. Map iteration order is passed in as a list that
enumerates the keys.

Two defects are modelled both as written and corrected (see Findings).
`DeleteData`, `DeleteUnusedData` and `Reset` use the corrected totals. The
`AsWritten` members follow the code exactly.

## Model

| member | source | states |
|---|---|---|
| Storage.GetSize | src/mmodel.cpp:12-30 | a directory measures the files beneath it, a regular file its length; only a directory or file can measure more than 0 |
| Storage.RemovePaths | src/mmodel.cpp:126-164 | a batch holding an empty path is refused whole: nothing deleted, 0 returned, no error emitted; otherwise only listed paths disappear, everything else is untouched, and errors name listed paths only |
| Storage.Removable | src/mmodel.cpp:143-145 | a deletion succeeds only for a directory (removed recursively) or a regular file that the platform does not refuse; anything else fails |
| Storage.RemoveSingle | src/mmodel.cpp:137-153 | a one-path batch removes the path and reclaims its measured size exactly when it is removable; otherwise nothing changes and one error names the path |
| Storage.RemoveEach | src/mmodel.cpp:137-163 | the deletion loop removes only listed paths; every error names a listed path and there are no more errors than paths (the exact error list is stated by `Storage.RemovePathsExact`) |
| Storage.RemovePathsExact | src/mmodel.cpp:126-164 | on a duplicate-free batch: the return value is the sum of the sizes of exactly the paths that can be removed, each measured before the batch; the errors name exactly the other paths, in order; the filesystem loses exactly the removed paths, a failed path staying whole; every path is on exactly one side |
| Storage.RemoveEachRemoves | src/mmodel.cpp:137-163 | every listed path that is removable when the loop starts is gone when it ends, whatever else the batch holds |
| Storage.RemoveEachLocal | src/mmodel.cpp:137-163 | what the loop reclaims and reports depends only on the filesystem at the batch's own paths |
| Storage.RemoveEachAgree | src/mmodel.cpp:137-163 | on two filesystems that agree on a set of paths holding the whole batch, the loop reclaims and reports the same and leaves them agreeing on that set |
| Entries.ProcessKnownPaths | src/mmodel.cpp:32-42 | the existing candidates are appended in candidate order and their sizes added |
| Entries.ClearCategory | src/mmodel.cpp:170-179 | a category is zeroed and its role reported exactly when bytes were reclaimed; other categories, paths and status stay as they were; a requested, nonzero category leaves exactly the filesystem, the failed paths and the reclaimed bytes of `removePaths` on its own list; one that was not requested or is empty leaves the filesystem untouched and fails nothing |
| Entries.ClearEntry | src/mmodel.cpp:166-202 | a size role is reported exactly for the categories whose size changed; a changed category was requested, nonzero and is now 0; nothing was deleted exactly when no role is reported, and then the entry is unchanged; on disk it only deletes, and only paths listed under a requested category with a nonzero size |
| Entries.ClearedNarrows | src/mmodel.cpp:170-202 | an entry cleared with some categories targets no path it did not target before |
| Entries.ClearEntryLocal | src/mmodel.cpp:166-202 | the cleared entry, the bytes deleted, the roles reported and the failed paths depend only on the filesystem at the entry's own paths |
| Entries.ClearEntryFrame | src/mmodel.cpp:166-202 | clearing an entry deletes nothing outside its own paths |
| Entries.ClearKeepsUnrequested | src/mmodel.cpp:170-202 | a category that was not requested keeps its size, so an entry holding data there still exists after clearing |
| Entries.ClearEntryAccounting | src/mmodel.cpp:166-202 | when no path is listed under two categories, the bytes deleted are the sum of what each requested, nonzero category's removal reclaims on the filesystem as it was before the call, the failed paths are those removals' failures, config then cache then local data, and a role is reported exactly when that category's removal reclaims something |
| Entries.StepAccounting | src/mmodel.cpp:170-179 | one `if` block reclaims and fails exactly what `removePaths` on its list would on any filesystem that agrees at those paths, and reports its role exactly when that is nonzero |
| Entries.LaterAccounting | src/mmodel.cpp:180-197 | the cache and local-data blocks together reclaim and fail what each would on its own, and report exactly the roles whose removal reclaims something |
| Entries.ClearLater | src/mmodel.cpp:180-197 | the cache and local-data blocks keep the config size; a role is reported exactly for the categories whose size changed, each changed one requested, nonzero and now 0; nothing deleted means the entry is unchanged; on disk they only delete, and only targeted paths |
| Entries.ClearEntrySteps | src/mmodel.cpp:166-202 | with categories that share no path, the config block and the two later blocks each reclaim and fail what their removals would on the filesystem before the call, each reporting exactly the roles that reclaim |
| Entries.ClearEntryReclaims | src/mmodel.cpp:166-202 | with categories that share no path, the bytes deleted are the sum of the three per-category removals on the filesystem before the call |
| Entries.ClearEntryFailures | src/mmodel.cpp:166-202 | with categories that share no path, the failed paths are the three per-category removals' failures, config first |
| Entries.ClearEntryRoles | src/mmodel.cpp:166-202 | with categories that share no path, a size role is reported exactly for the categories whose removal reclaims something |
| Entries.ClearEntryRemoves | src/mmodel.cpp:166-202 | every path that is removable before the call and listed under a requested, nonzero category whose list holds no empty path is gone afterwards |
| Entries.ClearLaterRemoves | src/mmodel.cpp:180-197 | the cache and local-data blocks delete every path of theirs that they attempt and that is removable when they start |
| Entries.ClearCategoryRemoves | src/mmodel.cpp:170-179 | one `if` block deletes every path of its list that is removable when it starts, if it attempts the list |
| Totals.TallySum | src/mmodel.cpp:406-418 | the loop over any duplicate-free key list sums each measure over those keys, as the order-free reference sum does |
| Totals.CalculateTotal | src/mmodel.cpp:397-420 | corrected: every total equals the order-free sum of its own measure over all entries |
| Totals.CalculateTotalOrderFree | src/mmodel.cpp:406-418 | the corrected totals do not depend on the iteration order of the map |
| Totals.CalculateTotalAsWritten | src/mmodel.cpp:397-420 | as written: the config total sums local-data sizes and the local-data total sums config sizes; every other total sums its own measure |
| Totals.SwappedTotalsMisreport | src/mmodel.cpp:408-410 | one entry with 100 config bytes and no local data is reported with a config total of 0 and a local-data total of 100, which disagrees with the entries |
| Registry.ClearOne | src/mmodel.cpp:328-344 | list and map stay in sync and only lose the cleared name; the other entries are kept; the bytes deleted and the filesystem afterwards are clearEntry's; the row stays exactly when clearEntry leaves the entry existing, and then holds that cleared entry |
| Registry.ClearOneKeepsOrder | src/mmodel.cpp:333-338 | the names surviving one clearing keep their relative order |
| Registry.ClearOneFrames | src/mmodel.cpp:328-344 | clearing one entry leaves the filesystem as it was at every path of any entry that shares no path with it |
| Registry.ClearOneRows | src/mmodel.cpp:329-344 | a removed row is the name's first occurrence and a surviving row keeps the list; the events are one deletion error per failed path, then one row event at the entry's old row, which is a removal exactly when the row went |
| Registry.Settle | src/mmodel.cpp:346-350 | totals are recomputed, and totalChanged emitted, exactly when bytes were deleted (as written) or bytes were deleted or a row was removed (corrected); dataDeleted is emitted exactly when bytes were deleted; the events so far are kept in front |
| Registry.DeleteData | src/mmodel.cpp:319-352 | an unknown name changes nothing and emits nothing; otherwise list and map stay in sync, only the named row can go, the other entries and the survivors' order are kept, and consistent totals stay consistent; the bytes deleted are clearEntry's, and the named row stays exactly when clearEntry leaves its entry existing, holding that cleared entry |
| Registry.DeleteDataTarget | src/mmodel.cpp:328-350 | the bytes deleted and the filesystem afterwards are clearEntry's; the row is removed exactly when the cleared entry no longer exists, and then it is the first occurrence of the name that goes; otherwise the list is unchanged and the row holds the cleared entry |
| Registry.DeleteDataAsWritten | src/mmodel.cpp:319-352 | as written: the totals are recomputed, swapped, exactly when bytes were deleted and are otherwise left as they were; the filesystem afterwards, the bytes deleted and whether the entry survives are exactly those of clearing the entry, as in the corrected command |
| Registry.Sweep | src/mmodel.cpp:359-386 | the loop over the keys keeps list and map in sync and only removes keys; on disk it only deletes, and every path outside the requested, nonzero categories of the visited uninstalled entries stays |
| Registry.ClearOneNarrows | src/mmodel.cpp:369-385 | clearing one entry leaves the rest of the loop no more paths to delete |
| Registry.TargetsMissInstalled | src/mmodel.cpp:362-367 | when no path is listed by two entries, the paths the loop may delete miss every path of every installed entry |
| Registry.SweepKeepsOrder | src/mmodel.cpp:359-386 | the names surviving the loop keep their relative order |
| Registry.SweepSpares | src/mmodel.cpp:362-367 | an installed entry, or one the loop does not visit, comes out exactly as it went in |
| Registry.SweepClearedSurvivor | src/mmodel.cpp:369-385 | a visited, uninstalled entry that survives has been cleared with the requested categories and still exists |
| Registry.SweepKeepsUnrequested | src/mmodel.cpp:369-385 | an entry holding data in a category that was not requested survives the loop with that size |
| Registry.SweepClearsOnce | src/mmodel.cpp:369-385 | when no path is listed by two entries, a visited uninstalled entry survives exactly when clearing it on the filesystem before the loop leaves it existing, and is then that cleared entry |
| Registry.SweepClears | src/mmodel.cpp:369-385 | for a visited uninstalled entry: a survivor exists and was cleared; data in an unrequested category keeps it; and, when no path is listed by two entries, it survives exactly when its clearing on the filesystem before the loop leaves it existing, as that cleared entry |
| Registry.SweepDeleted | src/mmodel.cpp:359-386 | when no path is listed by two entries, the loop deletes exactly the sum of what clearing each visited uninstalled entry on the filesystem before the loop reclaims |
| Registry.ReclaimedZero | src/mmodel.cpp:369-371 | that sum is zero exactly when no visited uninstalled entry's clearing deletes anything |
| Registry.SweepPrunes | src/mmodel.cpp:373-379 | the loop removed a row exactly when the map lost a key |
| Registry.SweepIdle | src/mmodel.cpp:369-385 | when the loop deleted no bytes, every surviving entry is unchanged |
| Registry.SweepUnchanged | src/mmodel.cpp:358-386 | a loop that deleted no bytes and removed no row leaves the map as it was |
| Registry.SweepSettles | src/mmodel.cpp:359-386 | over every key: installed entries are kept unchanged; uninstalled survivors exist and have been cleared; data in an unrequested category keeps an entry; when no path is listed by two entries, an uninstalled entry survives exactly when its clearing on the filesystem before the loop leaves it existing, as that cleared entry, the bytes deleted are what those clearings reclaim, and no installed entry loses a file |
| Registry.DeleteUnusedData | src/mmodel.cpp:354-395 | list and map stay in sync and only lose keys; survivors keep their order; installed entries are untouched; uninstalled survivors are cleared and still exist; data in an unrequested category keeps an entry; consistent totals stay consistent; when no path is listed by two entries, an uninstalled entry survives exactly when its clearing on the filesystem before the command leaves it existing, as that cleared entry, and the bytes deleted are what those clearings reclaim; on disk only paths of requested, nonzero categories of uninstalled entries can go, so with no path listed by two entries no installed entry loses a file |
| Registry.DeleteUnusedDataAsWritten | src/mmodel.cpp:354-395 | as written: the totals are recomputed, swapped, exactly when bytes were deleted and are otherwise left as they were |
| Registry.EmptyRowConsistent | src/mmodel.cpp:397-420 | a single uninstalled row holding no data has consistent totals that count one unused app |
| Registry.StaleUnusedCount | src/mmodel.cpp:333-350 | as written, deleting such a row empties the registry but keeps an unused-app count of 1 |
| Registry.StaleUnusedCountSweep | src/mmodel.cpp:373-392 | the same stale count after deleting unused data as written |
| Discovery.KnownPhase | src/mmodel.cpp:211-227 | the known-apps pass, from an empty registry, leaves list and map describing the same rows |
| Discovery.KnownEntry | src/mmodel.cpp:217-220 | a known application's entry lists the existing candidate paths per category and measures them; it is not installed and has no title or icon |
| Discovery.AddKnown | src/mmodel.cpp:215-227 | the known-apps loop appends, in table order, the names of the candidates whose entry exists, and keeps list and map in sync |
| Discovery.AddKnownKeeps | src/mmodel.cpp:221-226 | the known-apps loop keeps every entry the map already held |
| Discovery.AddKnownAt | src/mmodel.cpp:221-226 | the candidate at any position becomes a key exactly when its entry exists, holding that entry |
| Discovery.AddKnownEntries | src/mmodel.cpp:221-226 | a candidate becomes a key exactly when its entry exists, holding that entry; earlier keys are kept |
| Discovery.KnownPhaseRows | src/mmodel.cpp:211-227 | a known application gets a row exactly when its existing candidate paths hold some bytes, holding the entry built from them |
| Discovery.KnownPhaseBlank | src/mmodel.cpp:215-227 | every entry the known-apps pass creates is uninstalled, without title or icon |
| Discovery.AcceptedIn | src/mmodel.cpp:239-251 | a child of a search root is folded in exactly when it is a directory, named `harbour-*` ignoring ASCII case, and not matched by a non-empty exclusion pattern |
| Discovery.Fold | src/mmodel.cpp:250-274 | a found directory appends its name only when the name is not yet a key; its entry, created if missing, gains the path in the root's category and takes its size; other entries are untouched |
| Discovery.DiscoverIn | src/mmodel.cpp:242-275 | the iterator loop over one search root keeps list and map describing the same rows |
| Discovery.DiscoverInKeys | src/mmodel.cpp:242-275 | the loop over one root adds exactly the accepted children as keys |
| Discovery.DiscoverInEntries | src/mmodel.cpp:242-275 | after the loop over one root, an accepted name's entry has that directory appended to the root's category and that category's size set to the directory's size; every other entry is unchanged |
| Discovery.DiscoverInAppends | src/mmodel.cpp:252-256 | the loop appends the accepted names that were not keys, each once, at their first appearance, after the names already listed |
| Discovery.NewNamesElems | src/mmodel.cpp:252-256 | the appended names are exactly the accepted names that were not keys, without repetition |
| Install.FirstFile | src/mmodel.cpp:288-308 | the first candidate that is a regular file is chosen, or none when no candidate is |
| Install.Resolve | src/mmodel.cpp:288-309 | the install pass never touches paths or sizes |
| Install.ResolveInstalled | src/mmodel.cpp:288-309 | an entry is installed afterwards exactly when it was or some applications directory has a `.desktop` file for its name; without one, the entry is unchanged |
| Install.ResolveReadsFirst | src/mmodel.cpp:290-307 | with the first `.desktop` file found, the title is its Name value (empty when missing); the icon is the first icon template filled with its Icon value (the entry's name when missing) that names an existing file, or the old icon when there is none |
| Install.ResolveAll | src/mmodel.cpp:286-310 | the install pass keeps the set of keys |
| Rescan.Reset | src/mmodel.cpp:204-317 | the rebuilt registry lists each row once and its totals agree with its entries |
| Rescan.Discover | src/mmodel.cpp:239-276 | the search over the config, cache and local-data roots, in that order, keeps list and map describing the same rows |
| Rescan.ResetNames | src/mmodel.cpp:211-276 | the rows are the known applications with data, in table order, then each found directory name that is not yet a row, at its first appearance, config before cache before local data |
| Rescan.ResetRows | src/mmodel.cpp:211-276 | a name has a row exactly when it is a known application with data or a directory of that name was found under one of the roots |
| Rescan.StagedPerCategory | src/mmodel.cpp:258-274 | the three root passes each touch only their own category |
| Rescan.ResetEntries | src/mmodel.cpp:215-276 | each category of a row lists the existing known paths, then the directory found under that category's root, if any; its size is that directory's size when one was found and the known paths' size otherwise |
| Rescan.ResetInstall | src/mmodel.cpp:278-310 | a row is installed exactly when an applications directory has a `.desktop` file for its name; otherwise it has no title and no icon |
| Rescan.DiscoveredBlank | src/mmodel.cpp:211-276 | before the install pass every row is uninstalled, with no title and no icon |
| Rescan.ResetReadsDesktopFile | src/mmodel.cpp:286-309 | a row whose first `.desktop` file is the one in a given applications directory is installed, takes that file's Name value as its title (empty when missing), and takes as icon the first icon template, filled with the file's Icon value (the name when missing), that names an existing file; when none does, its icon stays empty |
| RowView.RowCount | src/mmodel.cpp:422-425 | a row index has no children; the root has one row per listed name |
| RowView.RowCountIsEntries | src/mmodel.cpp:422-425 | in a valid registry the root has one row per entry |
| RowView.DisplayTitle | src/mmodel.cpp:441 | a non-empty title is shown as is; an empty title shows the application's name |
| RowView.SortKey | src/mmodel.cpp:452-454 | the sort key is the character `0` for an installed application or `1` for one that is not, followed by the shown title |
| RowView.Data | src/mmodel.cpp:427-460 | an empty value is returned exactly for an invalid index or a role the model does not serve; the name role gives the row's name |
| RowView.DataShowsEntry | src/mmodel.cpp:427-460 | every entry is shown at exactly one row, the row of its name, and that row reads the entry's title, icon, status, sizes and sort key |
| RowView.InstalledSortFirst | src/mmodel.cpp:452-454 | every installed application sorts before every uninstalled one |
| RowView.SameStatusSortByTitle | src/mmodel.cpp:452-454 | between applications of the same status, the sort key orders as the shown titles do |

## Left out

- Threading: `reset`, `deleteData` and `deleteUnusedData` run their `Impl` on a worker thread. The model treats each `Impl` as one atomic step on an immutable registry.
- The `busy` and `resetting` flags and their change signals, `beginResetModel`/`endResetModel`, and the `QTimer` that starts the first rescan: these are bookkeeping for the view, not registry state.
- Qt notifications are an event log in the deletion commands: `deletionError`, `rowsRemoved` (one per removed row), `dataChanged` with its roles, `totalChanged` and `dataDeleted`. The log is not modelled for the rescan: its model reset, its busy and resetting flags, and the `totalChanged` that its closing `calculateTotal()` emits (lines 311-316, 419) are left out of the log, although the totals it computes are modelled.
- The `SAFE_MODE` build, in which nothing is deleted and every size counts as reclaimed, is not modelled.
- The `qint64` sizes and totals are unbounded naturals. Overflow past 2^63 bytes is not modelled.
- Storage.RemovePathsExact: a failed removal leaves its path whole in the model. `QDir::removeRecursively` (line 144) deletes what it can before it reports failure, so part of a tree may be gone after a failure; that partial state, and the bytes it frees without counting them, are not modelled.
- Registry.SweepClears: the exact survival rule is stated only when no path is listed by two entries (`Registry.Separate`). Otherwise clearing an earlier entry can delete a later entry's paths, and what the later clearing reclaims depends on the filesystem at its visit.
- Registry.SweepSettles: the exact survival rule and the bytes deleted are stated only when no path is listed by two entries, for the reason given for `Registry.SweepClears`.
- Registry.DeleteUnusedData: the exact survival rule and the bytes deleted are stated only when no path is listed by two entries, for the reason given for `Registry.SweepClears`. That installed entries keep every file is stated under the same condition, since a path an installed entry shares with an uninstalled one is deleted with the latter, in the source as in the model.
- `getSize` walks directories recursively. A directory's `treeSize` stands for that walk. Deleting a path removes only its own map key, so one listed path nested inside another is not modelled. Symbolic links are not modelled either.
- `MEntry` and `MEntry::exists()` are declared in `mmodel.h`, which is not part of this model. An entry exists when one of its three sizes is positive, and a default entry has empty lists, zero sizes, no install status, and an empty title and icon.
- `knownApps()` and `excludeDirs()` come from `mknown_apps.hpp`, which is not part of this model. They are inputs. The regular-expression match is an input predicate, and so is the standard-paths lookup.
- Rescan.Reset: requires the known-apps table to name each application once. The source appends table names without a containment check, so a repeated name would give a duplicated row.
- The directory iterator is an input listing, taken to name each child once (`Rescan.WellListed`, which `Rescan.StageEntries`, `Rescan.DiscoverEntries`, `Rescan.ResetEntries`, `Rescan.ResetInstall`, `Rescan.DiscoveredBlank` and `Rescan.ResetReadsDesktopFile` require). `harbour-*` is matched case-insensitively on ASCII letters, as Qt's name filters are by default.
- `QSettings` parsing of `.desktop` files is an input: a map from file to its key/value pairs.
- `roleNames` is not modelled: it only maps role numbers to property names for QML.
- RowView.Data: requires a row index inside the list, as any index the model hands out is. The source does not check the bound.
- The iteration order of `m_entries` is an input enumeration of the keys. Reset uses the name list as that order. The corrected totals do not depend on it (`Totals.CalculateTotalOrderFree`).

## Findings

| source | as written | input that shows it | evidently intended | confidence | as-written member | corrected member |
|---|---|---|---|---|---|---|
| src/mmodel.cpp:408-410 | `calculateTotal` adds each entry's config size to the local-data total and its local-data size to the config total | one uninstalled entry with 100 config bytes and no local data: config total 0, local-data total 100 | each total sums its own category, as the unused totals on lines 414-416 do | high (not executed) | Totals.SwappedTotalsMisreport | Totals.CalculateTotal |
| src/mmodel.cpp:346-350 | totals are recomputed only when `deleted > 0`, but a row whose entry held no data can still be removed | a registry with one uninstalled, empty row: deleting it removes the row, deletes 0 bytes, and leaves `unusedAppsCount` at 1 (likewise in `deleteUnusedDataImpl`, lines 388-392) | recompute the totals whenever a row is removed as well | medium (not executed) | Registry.StaleUnusedCount | Registry.DeleteData |

=== FILE: common.dfy ===
/** Sequence helpers shared by the model of the leftover-data registry:
    duplicate-free lists, the first index of an element (QList::indexOf),
    removal of the first occurrence (QList::removeOne) and order-preserving
    filtering of a list by a key set. */
module Common {

  datatype Option<+T> = None | Some(value: T) {
    function GetOr(default: T): T {
      match this
      case Some(v) => v
      case None => default
    }
  }

  /** The elements of a list, as a set. */
  function Elems<T>(s: seq<T>): set<T> {
    set x | x in s
  }

  predicate Distinct<T(==)>(s: seq<T>) {
    forall i, j :: 0 <= i < j < |s| ==> s[i] != s[j]
  }

  /** `order` lists every element of `keys` exactly once (the iteration order of a map). */
  predicate IsEnumeration<T(==)>(order: seq<T>, keys: set<T>) {
    Distinct(order) && Elems(order) == keys
  }

  /** QList::indexOf: the first position of x, or -1 when x is absent. */
  function IndexOf<T(==)>(s: seq<T>, x: T): (r: int)
    ensures -1 <= r < |s|
    ensures r == -1 <==> x !in s
    ensures 0 <= r ==> s[r] == x && x !in s[..r]
  {
    if |s| == 0 then -1
    else if s[0] == x then 0
    else
      var k := IndexOf(s[1..], x);
      if k < 0 then -1
      else
        assert s[..k + 1] == [s[0]] + s[1..][..k];
        k + 1
  }

  /** The last element of a non-empty sequence. */
  function Last<T>(s: seq<T>): T
    requires |s| > 0
  {
    s[|s| - 1]
  }

  /** QList::removeOne: drops the first occurrence of x, if any. */
  function RemoveOne<T(==)>(s: seq<T>, x: T): (r: seq<T>)
    ensures x !in s ==> r == s
    ensures x in s ==> |r| == |s| - 1 && r == s[..IndexOf(s, x)] + s[IndexOf(s, x) + 1..]
  {
    if |s| == 0 then []
    else if s[0] == x then s[1..]
    else
      var t := RemoveOne(s[1..], x);
      if x in s then
        assert x in s[1..];
        var i := IndexOf(s[1..], x);
        assert IndexOf(s, x) == i + 1;
        assert s[..i + 1] == [s[0]] + s[1..][..i];
        assert s[i + 2..] == s[1..][i + 1..];
        [s[0]] + t
      else
        [s[0]] + t
  }

  /** The elements of s that belong to keys, in their original order. */
  function Keep<T(==)>(s: seq<T>, keys: set<T>): (r: seq<T>)
    ensures Elems(r) == Elems(s) * keys
    ensures |r| <= |s|
  {
    if |s| == 0 then []
    else
      var head := if s[0] in keys then [s[0]] else [];
      var t := Keep(s[1..], keys);
      ElemsConcat(head, t);
      ElemsCons(s);
      head + t
  }

  lemma ElemsCons<T>(s: seq<T>)
    requires |s| > 0
    ensures Elems(s) == {s[0]} + Elems(s[1..])
  {
    assert s == [s[0]] + s[1..];
  }

  lemma ElemsConcat<T>(s: seq<T>, t: seq<T>)
    ensures Elems(s + t) == Elems(s) + Elems(t)
  {
  }

  lemma {:induction false} KeepDistinct<T>(s: seq<T>, keys: set<T>)
    requires Distinct(s)
    ensures Distinct(Keep(s, keys))
  {
    if |s| > 0 {
      KeepDistinct(s[1..], keys);
      var t := Keep(s[1..], keys);
      assert s[0] !in Elems(t) by {
        assert s[0] !in s[1..];
      }
      var head := if s[0] in keys then [s[0]] else [];
      assert Keep(s, keys) == head + t;
      forall i, j | 0 <= i < j < |head + t|
        ensures (head + t)[i] != (head + t)[j]
      {
        if i < |head| {
          assert (head + t)[j] in Elems(t);
        }
      }
    }
  }

  /** Keep only looks at the membership of the list's own elements. */
  lemma {:induction false} KeepAgree<T>(s: seq<T>, a: set<T>, b: set<T>)
    requires forall x :: x in s ==> (x in a <==> x in b)
    ensures Keep(s, a) == Keep(s, b)
  {
    if |s| > 0 {
      KeepAgree(s[1..], a, b);
    }
  }

  lemma {:induction false} KeepAll<T>(s: seq<T>, keys: set<T>)
    requires Elems(s) <= keys
    ensures Keep(s, keys) == s
  {
    if |s| > 0 {
      assert s == [s[0]] + s[1..];
      KeepAll(s[1..], keys);
    }
  }

  /** Filtering twice is filtering once by the intersection. */
  lemma {:induction false} KeepKeep<T>(s: seq<T>, a: set<T>, b: set<T>)
    ensures Keep(Keep(s, a), b) == Keep(s, a * b)
  {
    if |s| > 0 {
      KeepKeep(s[1..], a, b);
      var head := if s[0] in a then [s[0]] else [];
      assert Keep(s, a) == head + Keep(s[1..], a);
      KeepAppend(head, Keep(s[1..], a), b);
    }
  }

  lemma {:induction false} KeepAppend<T>(s: seq<T>, t: seq<T>, keys: set<T>)
    ensures Keep(s + t, keys) == Keep(s, keys) + Keep(t, keys)
  {
    if |s| == 0 {
      assert s + t == t;
    } else {
      assert (s + t)[0] == s[0];
      assert (s + t)[1..] == s[1..] + t;
      KeepAppend(s[1..], t, keys);
      var head := if s[0] in keys then [s[0]] else [];
      assert Keep(s + t, keys) == head + Keep(s[1..] + t, keys);
      assert Keep(s, keys) == head + Keep(s[1..], keys);
    }
  }

  /** On a duplicate-free list, removing the first occurrence of x is the
      same as keeping every element except x: the others keep their order. */
  lemma {:induction false} RemoveOneIsKeep<T>(s: seq<T>, x: T)
    requires Distinct(s)
    ensures RemoveOne(s, x) == Keep(s, Elems(s) - {x})
  {
    if |s| > 0 {
      if s[0] == x {
        assert x !in s[1..];
        KeepAgree(s[1..], Elems(s) - {x}, Elems(s[1..]));
        KeepAll(s[1..], Elems(s[1..]));
      } else {
        RemoveOneIsKeep(s[1..], x);
        KeepAgree(s[1..], Elems(s) - {x}, Elems(s[1..]) - {x});
      }
    }
  }

  /** A duplicate-free list has as many elements as its set. */
  lemma {:induction false} DistinctCard<T>(s: seq<T>)
    requires Distinct(s)
    ensures |Elems(s)| == |s|
  {
    if |s| > 0 {
      DistinctCard(s[1..]);
      assert s[0] !in s[1..];
      assert Elems(s) == {s[0]} + Elems(s[1..]);
    }
  }
}

=== FILE: discovery.dfy ===
/** The first two passes of `MModel::resetImpl`: entries for the known
    applications, then the `harbour-*` directories found under the three
    writable data locations, folded into the entries by directory name.

    The known-apps table and the exclusion pattern come from a header that
    is not part of this model; they are inputs. What a directory iterator
    yields under a search root is an input too: the child names in
    iteration order. */
module Discovery {
  import opened Common
  import opened Storage
  import opened Entries
  import opened Registry

  /** One row of the known-apps table: the application's name and its
      candidate paths per category. */
  datatype KnownApp = KnownApp(name: Name, paths: PerCategory<seq<Path>>)

  /** The table names every application once. */
  predicate DistinctNames(apps: seq<KnownApp>) {
    forall i, j :: 0 <= i < j < |apps| ==> apps[i].name != apps[j].name
  }

  /** The entry built for a known application: each category lists the
      candidate paths that exist, in table order, and measures their total
      size; the entry is not installed and has no title or icon yet. */
  function KnownEntry(fs: FileSystem, app: KnownApp): (e: Entry)
    ensures forall c :: e.paths.Get(c) == Existing(fs, app.paths.Get(c))
    ensures forall c :: e.sizes.Get(c) == SumSizes(fs, Existing(fs, app.paths.Get(c)))
    ensures !e.installed && e.title == "" && e.icon == ""
  {
    var config := ProcessKnownPaths(fs, Fresh.paths.config, Fresh.sizes.config, app.paths.config);
    var cache := ProcessKnownPaths(fs, Fresh.paths.cache, Fresh.sizes.cache, app.paths.cache);
    var data := ProcessKnownPaths(fs, Fresh.paths.localData, Fresh.sizes.localData, app.paths.localData);
    Fresh.(paths := PerCategory(config.0, cache.0, data.0), sizes := PerCategory(config.1, cache.1, data.1))
  }

  /** A name with the entry built for it. */
  type Candidate = (Name, Entry)

  /** The entries the known-apps loop builds, one per table row. Building
      an entry reads only the filesystem, so building them all first and
      inserting them afterwards is the same as the source's interleaving. */
  function Build(fs: FileSystem, apps: seq<KnownApp>): (r: seq<Candidate>)
    ensures |r| == |apps|
    ensures forall i :: 0 <= i < |apps| ==> r[i] == (apps[i].name, KnownEntry(fs, apps[i]))
  {
    if |apps| == 0 then []
    else
      var rest := Build(fs, apps[1..]);
      var r := [(apps[0].name, KnownEntry(fs, apps[0]))] + rest;
      assert forall i :: 0 < i < |apps| ==> r[i] == rest[i - 1] && apps[1..][i - 1] == apps[i];
      r
  }

  predicate DistinctCandidates(built: seq<Candidate>) {
    forall i, j :: 0 <= i < j < |built| ==> built[i].0 != built[j].0
  }

  /** The names of the candidates whose entry exists, in order. */
  function ExistingNames(built: seq<Candidate>): seq<Name> {
    if |built| == 0 then []
    else (if built[0].1.Exists() then [built[0].0] else []) + ExistingNames(built[1..])
  }

  /** Every name listed is the name of some candidate. */
  lemma {:induction false} ExistingNamesFrom(built: seq<Candidate>, k: Name)
    requires k in ExistingNames(built)
    ensures exists i :: 0 <= i < |built| && built[i].0 == k
    decreases |built|
  {
    var t := ExistingNames(built[1..]);
    if k != built[0].0 {
      assert k in t;
      ExistingNamesFrom(built[1..], k);
      var i :| 0 <= i < |built[1..]| && built[1..][i].0 == k;
      assert built[i + 1].0 == k;
    }
  }

  /** A name no candidate carries is not listed. */
  lemma {:induction false} ExistingNamesAvoid(built: seq<Candidate>, k: Name)
    requires forall i :: 0 <= i < |built| ==> built[i].0 != k
    ensures k !in ExistingNames(built)
    decreases |built|
  {
    if |built| > 0 {
      assert forall i :: 0 <= i < |built[1..]| ==> built[1..][i] == built[i + 1];
      ExistingNamesAvoid(built[1..], k);
    }
  }

  /** Appending a new name and inserting its entry keeps list and map in
      sync. */
  lemma AppendKeepsSync(names: seq<Name>, entries: map<Name, Entry>, n: Name, e: Entry)
    requires Synced(names, entries) && n !in entries
    ensures Synced(names + [n], entries[n := e])
  {
    assert n !in names;
    var s := names + [n];
    forall i, j | 0 <= i < j < |s| ensures s[i] != s[j] {
      if j == |names| {
        assert s[i] in names;
      }
    }
    assert Elems(s) == Elems(names) + {n};
  }

  /** The candidates after the first still carry distinct names that are
      neither in the map nor the first one's. */
  lemma RestCandidates(built: seq<Candidate>, entries: map<Name, Entry>)
    requires |built| > 0 && DistinctCandidates(built)
    requires forall i :: 0 <= i < |built| ==> built[i].0 !in entries
    ensures DistinctCandidates(built[1..])
    ensures forall i :: 0 <= i < |built| - 1 ==> built[1..][i].0 !in entries[built[0].0 := built[0].1]
  {
    assert forall i :: 0 <= i < |built| - 1 ==> built[1..][i] == built[i + 1];
  }

  /** The known-apps loop: each candidate, in table order, is appended to
      the list and inserted into the map only when its entry exists. */
  function AddKnown(built: seq<Candidate>, names: seq<Name>, entries: map<Name, Entry>)
    : (r: (seq<Name>, map<Name, Entry>))
    requires Synced(names, entries)
    requires DistinctCandidates(built)
    requires forall i :: 0 <= i < |built| ==> built[i].0 !in entries
    ensures Synced(r.0, r.1)
    ensures r.0 == names + ExistingNames(built)
    decreases |built|
  {
    if |built| == 0 then
      assert names + [] == names;
      (names, entries)
    else
      var n := built[0].0;
      var e := built[0].1;
      var rest := built[1..];
      RestCandidates(built, entries);
      if e.Exists() then
        AppendKeepsSync(names, entries, n, e);
        var r := AddKnown(rest, names + [n], entries[n := e]);
        assert ExistingNames(built) == [n] + ExistingNames(rest);
        assert names + [n] + ExistingNames(rest) == names + ([n] + ExistingNames(rest));
        r
      else
        assert ExistingNames(built) == ExistingNames(rest);
        AddKnown(rest, names, entries)
  }

  /** The known-apps loop keeps every entry the map already held. */
  lemma {:induction false} AddKnownKeeps(built: seq<Candidate>, names: seq<Name>, entries: map<Name, Entry>, k: Name)
    requires Synced(names, entries)
    requires DistinctCandidates(built)
    requires forall i :: 0 <= i < |built| ==> built[i].0 !in entries
    requires k in entries
    ensures var r := AddKnown(built, names, entries);
      k in r.1 && r.1[k] == entries[k]
    decreases |built|
  {
    if |built| > 0 {
      var n := built[0].0;
      var e := built[0].1;
      var rest := built[1..];
      RestCandidates(built, entries);
      if e.Exists() {
        AppendKeepsSync(names, entries, n, e);
        AddKnownKeeps(rest, names + [n], entries[n := e], k);
      } else {
        AddKnownKeeps(rest, names, entries, k);
      }
    }
  }

  /** The known-apps loop makes the first candidate a key exactly when its
      entry exists, holding that entry. */
  lemma AddKnownFirst(built: seq<Candidate>, names: seq<Name>, entries: map<Name, Entry>)
    requires Synced(names, entries)
    requires DistinctCandidates(built)
    requires forall i :: 0 <= i < |built| ==> built[i].0 !in entries
    requires |built| > 0
    ensures var r := AddKnown(built, names, entries);
      && (built[0].0 in r.1 <==> built[0].1.Exists())
      && (built[0].0 in r.1 ==> r.1[built[0].0] == built[0].1)
  {
    var n := built[0].0;
    var e := built[0].1;
    var rest := built[1..];
    RestCandidates(built, entries);
    if e.Exists() {
      AppendKeepsSync(names, entries, n, e);
      AddKnownKeeps(rest, names + [n], entries[n := e], n);
    } else {
      assert n !in names;
      ExistingNamesAvoid(rest, n);
    }
  }

  /** The known-apps loop makes the candidate at position `i` a key exactly
      when its entry exists, holding that entry. */
  lemma {:induction false} AddKnownAt(built: seq<Candidate>, names: seq<Name>, entries: map<Name, Entry>, i: nat)
    requires Synced(names, entries)
    requires DistinctCandidates(built)
    requires forall i :: 0 <= i < |built| ==> built[i].0 !in entries
    requires i < |built|
    ensures var r := AddKnown(built, names, entries);
      && (built[i].0 in r.1 <==> built[i].1.Exists())
      && (built[i].0 in r.1 ==> r.1[built[i].0] == built[i].1)
    decreases |built|
  {
    if i == 0 {
      AddKnownFirst(built, names, entries);
    } else {
      var n := built[0].0;
      var e := built[0].1;
      var rest := built[1..];
      RestCandidates(built, entries);
      assert built[i] == rest[i - 1];
      if e.Exists() {
        AppendKeepsSync(names, entries, n, e);
        AddKnownAt(rest, names + [n], entries[n := e], i - 1);
      } else {
        AddKnownAt(rest, names, entries, i - 1);
      }
    }
  }

  /** The map the known-apps loop produces: earlier entries are kept, and a
      candidate is a key exactly when its entry exists, holding that
      entry. */
  lemma AddKnownEntries(built: seq<Candidate>, names: seq<Name>, entries: map<Name, Entry>)
    requires Synced(names, entries)
    requires DistinctCandidates(built)
    requires forall i :: 0 <= i < |built| ==> built[i].0 !in entries
    ensures var r := AddKnown(built, names, entries);
      && (forall k :: k in entries ==> k in r.1 && r.1[k] == entries[k])
      && (forall i :: 0 <= i < |built| ==> (built[i].0 in r.1 <==> built[i].1.Exists()))
      && (forall i :: 0 <= i < |built| && built[i].0 in r.1 ==> r.1[built[i].0] == built[i].1)
  {
    forall k | k in entries
      ensures var r := AddKnown(built, names, entries); k in r.1 && r.1[k] == entries[k]
    {
      AddKnownKeeps(built, names, entries, k);
    }
    forall i | 0 <= i < |built|
      ensures var r := AddKnown(built, names, entries);
        && (built[i].0 in r.1 <==> built[i].1.Exists())
        && (built[i].0 in r.1 ==> r.1[built[i].0] == built[i].1)
    {
      AddKnownAt(built, names, entries, i);
    }
  }

  /** An entry not yet resolved against the `.desktop` files: not
      installed, without title or icon. */
  predicate Blank(e: Entry) {
    !e.installed && e.title == "" && e.icon == ""
  }

  /** The known-apps loop only ever inserts the entries it was given. */
  lemma AddKnownBlank(built: seq<Candidate>, names: seq<Name>, entries: map<Name, Entry>)
    requires Synced(names, entries)
    requires DistinctCandidates(built)
    requires forall i :: 0 <= i < |built| ==> built[i].0 !in entries
    requires forall k :: k in entries ==> Blank(entries[k])
    requires forall i :: 0 <= i < |built| ==> Blank(built[i].1)
    ensures var r := AddKnown(built, names, entries);
      forall k :: k in r.1 ==> Blank(r.1[k])
  {
    var r := AddKnown(built, names, entries);
    AddKnownEntries(built, names, entries);
    forall k | k in r.1 ensures Blank(r.1[k]) {
      assert k in r.0;
      if k !in entries {
        assert k !in names;
        assert k in ExistingNames(built);
        ExistingNamesFrom(built, k);
        var i :| 0 <= i < |built| && built[i].0 == k;
        assert r.1[k] == built[i].1;
      }
    }
  }

  /** The known-apps pass of a rescan, starting from an empty registry. */
  function KnownPhase(fs: FileSystem, apps: seq<KnownApp>): (r: (seq<Name>, map<Name, Entry>))
    requires DistinctNames(apps)
    ensures Synced(r.0, r.1)
  {
    assert Elems<Name>([]) == {};
    AddKnown(Build(fs, apps), [], map[])
  }

  /** The rows of the known-apps pass are the candidates whose entry
      exists, in table order. */
  lemma KnownPhaseNames(fs: FileSystem, apps: seq<KnownApp>)
    requires DistinctNames(apps)
    ensures KnownPhase(fs, apps).0 == ExistingNames(Build(fs, apps))
  {
    assert Elems<Name>([]) == {};
    assert [] + ExistingNames(Build(fs, apps)) == ExistingNames(Build(fs, apps));
  }

  /** The bytes held by the candidate paths of a known application that
      exist, over all three categories. */
  function KnownSize(fs: FileSystem, app: KnownApp): nat {
    SumSizes(fs, Existing(fs, app.paths.config)) + SumSizes(fs, Existing(fs, app.paths.cache))
    + SumSizes(fs, Existing(fs, app.paths.localData))
  }

  /** Every entry the known-apps pass creates is blank. */
  lemma KnownPhaseBlank(fs: FileSystem, apps: seq<KnownApp>)
    requires DistinctNames(apps)
    ensures var r := KnownPhase(fs, apps);
      forall k :: k in r.1 ==> Blank(r.1[k])
  {
    assert Elems<Name>([]) == {};
    var built := Build(fs, apps);
    forall i | 0 <= i < |built| ensures Blank(built[i].1) {
      assert built[i].1 == KnownEntry(fs, apps[i]);
    }
    AddKnownBlank(built, [], map[]);
    assert KnownPhase(fs, apps) == AddKnown(built, [], map[]);
  }

  /** A known application gets a row exactly when its existing candidate
      paths hold some bytes; the rows come in table order and hold the
      entries built from the existing candidate paths. */
  lemma KnownPhaseRows(fs: FileSystem, apps: seq<KnownApp>)
    requires DistinctNames(apps)
    ensures var r := KnownPhase(fs, apps);
      && r.0 == ExistingNames(Build(fs, apps))
      && (forall i :: 0 <= i < |apps| ==>
            (apps[i].name in r.1 <==> KnownSize(fs, apps[i]) > 0))
      && (forall i :: 0 <= i < |apps| && apps[i].name in r.1 ==> r.1[apps[i].name] == KnownEntry(fs, apps[i]))
  {
    assert Elems<Name>([]) == {};
    var built := Build(fs, apps);
    var r := AddKnown(built, [], map[]);
    assert [] + ExistingNames(built) == ExistingNames(built);
    AddKnownEntries(built, [], map[]);
    forall i | 0 <= i < |apps| ensures apps[i].name in r.1 <==> KnownSize(fs, apps[i]) > 0 {
      var e := KnownEntry(fs, apps[i]);
      assert built[i] == (apps[i].name, e);
      assert e.sizes.config + e.sizes.cache + e.sizes.localData == KnownSize(fs, apps[i]) by {
        assert e.sizes.config == e.sizes.Get(Config);
        assert e.sizes.cache == e.sizes.Get(Cache);
        assert e.sizes.localData == e.sizes.Get(LocalData);
      }
    }
  }

  /** The name filter `harbour-*`. Qt's name filters ignore case unless
      asked otherwise, so the prefix is compared after folding ASCII
      capitals. */
  const HarbourPrefix: string := "harbour-"

  function LowerAscii(ch: char): char {
    if 'A' <= ch <= 'Z' then (ch as int + 32) as char else ch
  }

  predicate HarbourName(n: Name) {
    |n| >= |HarbourPrefix| && forall i :: 0 <= i < |HarbourPrefix| ==> LowerAscii(n[i]) == HarbourPrefix[i]
  }

  /** The exclusion pattern and the regular-expression match it performs;
      an empty pattern switches the check off. */
  datatype Exclusion = Exclusion(pattern: string, hasMatch: Path -> bool)

  predicate Skipped(x: Exclusion, p: Path) {
    x.pattern != "" && x.hasMatch(p)
  }

  /** The path the directory iterator reports for a child of a root. */
  function ChildPath(root: Path, n: Name): Path {
    root + "/" + n
  }

  /** A child of a search root that is folded into the entries: a
      directory, named `harbour-*`, not excluded. */
  predicate Accepted(fs: FileSystem, x: Exclusion, root: Path, n: Name) {
    IsDir(fs, ChildPath(root, n)) && HarbourName(n) && !Skipped(x, ChildPath(root, n))
  }

  /** The accepted children of a root, in iteration order. */
  function AcceptedIn(fs: FileSystem, x: Exclusion, root: Path, children: seq<Name>): (r: seq<Name>)
    ensures forall k :: k in r <==> k in children && Accepted(fs, x, root, k)
  {
    if |children| == 0 then []
    else
      var rest := AcceptedIn(fs, x, root, children[1..]);
      assert forall k :: k in children <==> k == children[0] || k in children[1..];
      (if Accepted(fs, x, root, children[0]) then [children[0]] else []) + rest
  }

  /** `m_entries[dirname]`: the entry under a name, or a default one. */
  function Lookup(entries: map<Name, Entry>, n: Name): Entry {
    if n in entries then entries[n] else Fresh
  }

  /** An entry after a directory of category `c` was found for it: the path
      is appended to that category and its size replaces that category's
      size; nothing else changes. */
  function WithDir(e: Entry, c: Category, path: Path, size: nat): (r: Entry)
    ensures r.paths.Get(c) == e.paths.Get(c) + [path] && r.sizes.Get(c) == size
    ensures forall d :: d != c ==> r.paths.Get(d) == e.paths.Get(d) && r.sizes.Get(d) == e.sizes.Get(d)
    ensures r.installed == e.installed && r.title == e.title && r.icon == e.icon
  {
    e.(paths := e.paths.Set(c, e.paths.Get(c) + [path]), sizes := e.sizes.Set(c, size))
  }

  /** Folding one found directory into the registry: a name that is not yet
      a key is appended to the list; the entry is created if needed and
      updated in place; no other entry changes. */
  function Fold(names: seq<Name>, entries: map<Name, Entry>, c: Category, n: Name, path: Path, size: nat)
    : (r: (seq<Name>, map<Name, Entry>))
    requires Synced(names, entries)
    ensures Synced(r.0, r.1)
    ensures r.0 == if n in entries then names else names + [n]
    ensures r.1.Keys == entries.Keys + {n}
    ensures forall k :: k in entries && k != n ==> r.1[k] == entries[k]
    ensures r.1[n] == WithDir(Lookup(entries, n), c, path, size)
  {
    var e := WithDir(Lookup(entries, n), c, path, size);
    if n in entries then
      UpdateKeepsOrder(names, entries, n, e);
      (names, entries[n := e])
    else
      AppendKeepsSync(names, entries, n, e);
      (names + [n], entries[n := e])
  }

  /** The iterator loop over one search root: every accepted child is
      folded in with the size of its directory. */
  function DiscoverIn(fs: FileSystem, x: Exclusion, c: Category, root: Path, children: seq<Name>,
                      names: seq<Name>, entries: map<Name, Entry>): (r: (seq<Name>, map<Name, Entry>))
    requires Synced(names, entries)
    ensures Synced(r.0, r.1)
    decreases |children|
  {
    if |children| == 0 then (names, entries)
    else
      var n := children[0];
      var p := ChildPath(root, n);
      if !IsDir(fs, p) || !HarbourName(n) || Skipped(x, p) then
        DiscoverIn(fs, x, c, root, children[1..], names, entries)
      else
        var h := Fold(names, entries, c, n, p, GetSize(fs, p));
        DiscoverIn(fs, x, c, root, children[1..], h.0, h.1)
  }

  /** One step of the loop over a root, unfolded. */
  lemma DiscoverInStep(fs: FileSystem, x: Exclusion, c: Category, root: Path, children: seq<Name>,
                       names: seq<Name>, entries: map<Name, Entry>)
    requires Synced(names, entries) && |children| > 0
    ensures var n := children[0];
      var p := ChildPath(root, n);
      var h := Fold(names, entries, c, n, p, GetSize(fs, p));
      && AcceptedIn(fs, x, root, children)
         == (if Accepted(fs, x, root, n) then [n] else []) + AcceptedIn(fs, x, root, children[1..])
      && DiscoverIn(fs, x, c, root, children, names, entries)
         == if Accepted(fs, x, root, n) then DiscoverIn(fs, x, c, root, children[1..], h.0, h.1)
            else DiscoverIn(fs, x, c, root, children[1..], names, entries)
  {
  }

  /** The loop over one root adds exactly the accepted children as keys. */
  lemma {:induction false} DiscoverInKeys(fs: FileSystem, x: Exclusion, c: Category, root: Path,
                                         children: seq<Name>, names: seq<Name>, entries: map<Name, Entry>)
    requires Synced(names, entries)
    ensures DiscoverIn(fs, x, c, root, children, names, entries).1.Keys
            == entries.Keys + Elems(AcceptedIn(fs, x, root, children))
    decreases |children|
  {
    if |children| == 0 {
      assert Elems(AcceptedIn(fs, x, root, children)) == {};
    } else {
      var n := children[0];
      var p := ChildPath(root, n);
      var acc := AcceptedIn(fs, x, root, children[1..]);
      DiscoverInStep(fs, x, c, root, children, names, entries);
      if Accepted(fs, x, root, n) {
        var h := Fold(names, entries, c, n, p, GetSize(fs, p));
        DiscoverInKeys(fs, x, c, root, children[1..], h.0, h.1);
        ElemsConcat([n], acc);
      } else {
        DiscoverInKeys(fs, x, c, root, children[1..], names, entries);
      }
    }
  }

  /** What the loop over one root does to each entry, in terms of the
      accepted children (listed once each, as a directory lists a name
      once): an accepted name's entry, created if it was missing, has the
      child's path appended to category `c` and that category's size set to
      the directory's size; every other entry is unchanged, and a name that
      had no entry still has none. */
  lemma {:induction false} DiscoverInEntries(fs: FileSystem, x: Exclusion, c: Category, root: Path,
                                            children: seq<Name>, names: seq<Name>, entries: map<Name, Entry>)
    requires Synced(names, entries) && Distinct(children)
    ensures var r := DiscoverIn(fs, x, c, root, children, names, entries);
      forall k :: Lookup(r.1, k)
                  == if k in AcceptedIn(fs, x, root, children)
                     then WithDir(Lookup(entries, k), c, ChildPath(root, k), GetSize(fs, ChildPath(root, k)))
                     else Lookup(entries, k)
    decreases |children|
  {
    DiscoverInKeys(fs, x, c, root, children, names, entries);
    if |children| > 0 {
      var n := children[0];
      var p := ChildPath(root, n);
      var tail := children[1..];
      assert Distinct(tail);
      var r := DiscoverIn(fs, x, c, root, children, names, entries);
      DiscoverInStep(fs, x, c, root, children, names, entries);
      if Accepted(fs, x, root, n) {
        var h := Fold(names, entries, c, n, p, GetSize(fs, p));
        DiscoverInEntries(fs, x, c, root, tail, h.0, h.1);
        assert n !in tail;
        assert n !in AcceptedIn(fs, x, root, tail);
        forall k
          ensures Lookup(r.1, k)
                  == if k in AcceptedIn(fs, x, root, children)
                     then WithDir(Lookup(entries, k), c, ChildPath(root, k), GetSize(fs, ChildPath(root, k)))
                     else Lookup(entries, k)
        {
          if k != n {
            assert Lookup(h.1, k) == Lookup(entries, k);
          }
        }
      } else {
        DiscoverInEntries(fs, x, c, root, tail, names, entries);
      }
    }
  }

  /** The names the loop over one root appends are accepted children that
      were not keys before, each once, in the order the iterator first
      yields them; the names already listed stay in front. */
  lemma {:induction false} DiscoverInAppends(fs: FileSystem, x: Exclusion, c: Category, root: Path,
                                            children: seq<Name>, names: seq<Name>, entries: map<Name, Entry>)
    requires Synced(names, entries)
    ensures DiscoverIn(fs, x, c, root, children, names, entries).0
            == names + NewNames(AcceptedIn(fs, x, root, children), entries.Keys)
    decreases |children|
  {
    if |children| == 0 {
      assert names + [] == names;
    } else {
      var n := children[0];
      var p := ChildPath(root, n);
      DiscoverInStep(fs, x, c, root, children, names, entries);
      if Accepted(fs, x, root, n) {
        var h := Fold(names, entries, c, n, p, GetSize(fs, p));
        DiscoverInAppends(fs, x, c, root, children[1..], h.0, h.1);
        AppendsAccepted(fs, x, c, root, children, names, entries);
      } else {
        assert AcceptedIn(fs, x, root, children) == AcceptedIn(fs, x, root, children[1..]);
        DiscoverInAppends(fs, x, c, root, children[1..], names, entries);
      }
    }
  }

  /** The step of DiscoverInAppends where the first child is accepted. */
  lemma AppendsAccepted(fs: FileSystem, x: Exclusion, c: Category, root: Path,
                        children: seq<Name>, names: seq<Name>, entries: map<Name, Entry>)
    requires Synced(names, entries) && |children| > 0 && Accepted(fs, x, root, children[0])
    requires var n := children[0];
      var h := Fold(names, entries, c, n, ChildPath(root, n), GetSize(fs, ChildPath(root, n)));
      DiscoverIn(fs, x, c, root, children[1..], h.0, h.1).0
      == h.0 + NewNames(AcceptedIn(fs, x, root, children[1..]), h.1.Keys)
    ensures DiscoverIn(fs, x, c, root, children, names, entries).0
            == names + NewNames(AcceptedIn(fs, x, root, children), entries.Keys)
  {
    var n := children[0];
    var p := ChildPath(root, n);
    var h := Fold(names, entries, c, n, p, GetSize(fs, p));
    DiscoverInStep(fs, x, c, root, children, names, entries);
    AppendNew(names, n, AcceptedIn(fs, x, root, children[1..]), entries.Keys, h.0, h.1.Keys);
  }

  /** Appending a name that is new, or not appending one that is known,
      followed by the new names of the rest. */
  lemma AppendNew(names: seq<Name>, n: Name, acc: seq<Name>, known: set<Name>, names': seq<Name>, known': set<Name>)
    requires n in known ==> names' == names && known' == known
    requires n !in known ==> names' == names + [n] && known' == known + {n}
    ensures names' + NewNames(acc, known') == names + NewNames([n] + acc, known)
  {
    NewNamesCons(n, acc, known);
    if n !in known {
      var t := NewNames(acc, known + {n});
      assert names + [n] + t == names + ([n] + t);
    }
  }

  /** The names of `s` that are not in `known`, each at its first
      occurrence, in order. */
  function NewNames(s: seq<Name>, known: set<Name>): seq<Name>
    decreases |s|
  {
    if |s| == 0 then []
    else if s[0] in known then NewNames(s[1..], known)
    else [s[0]] + NewNames(s[1..], known + {s[0]})
  }

  /** NewNames lists, once each, exactly the names of `s` outside `known`. */
  lemma {:induction false} NewNamesElems(s: seq<Name>, known: set<Name>)
    ensures forall k :: k in NewNames(s, known) <==> k in s && k !in known
    ensures Distinct(NewNames(s, known))
    decreases |s|
  {
    if |s| > 0 {
      assert forall k :: k in s <==> k == s[0] || k in s[1..];
      if s[0] in known {
        NewNamesElems(s[1..], known);
      } else {
        NewNamesElems(s[1..], known + {s[0]});
        var t := NewNames(s[1..], known + {s[0]});
        assert s[0] !in t;
        assert NewNames(s, known) == [s[0]] + t;
        forall i, j | 0 <= i < j < |[s[0]] + t| ensures ([s[0]] + t)[i] != ([s[0]] + t)[j] {
          if i == 0 {
            assert ([s[0]] + t)[j] in t;
          }
        }
      }
    }
  }

  /** The new names of a concatenation: those of the first part, then
      those of the second part that the first part did not already add. */
  lemma {:induction false} NewNamesAppend(s: seq<Name>, t: seq<Name>, known: set<Name>)
    ensures NewNames(s + t, known) == NewNames(s, known) + NewNames(t, known + Elems(s))
    decreases |s|
  {
    if |s| == 0 {
      assert s + t == t;
      assert known + Elems(s) == known;
    } else {
      assert (s + t)[0] == s[0];
      assert (s + t)[1..] == s[1..] + t;
      ElemsCons(s);
      if s[0] in known {
        NewNamesAppend(s[1..], t, known);
        assert known + Elems(s[1..]) == known + Elems(s);
      } else {
        NewNamesAppend(s[1..], t, known + {s[0]});
        assert known + {s[0]} + Elems(s[1..]) == known + Elems(s);
        var u := NewNames(s[1..], known + {s[0]});
        var v := NewNames(t, known + Elems(s));
        assert [s[0]] + u + v == [s[0]] + (u + v);
      }
    }
  }

  lemma NewNamesCons(n: Name, s: seq<Name>, known: set<Name>)
    ensures NewNames([n] + s, known) == if n in known then NewNames(s, known) else [n] + NewNames(s, known + {n})
  {
    assert ([n] + s)[1..] == s;
  }
}

=== FILE: entries.dfy ===
/** One application record (`MEntry`): three categories of leftover data,
    each a list of paths with a cached size, plus the install status, title
    and icon. Also the per-entry operations `processKnownPaths` and
    `MModel::clearEntry`. */
module Entries {
  import opened Common
  import opened Storage

  type Name = string

  /** The three kinds of leftover data, in the order the source handles them. */
  datatype Category = Config | Cache | LocalData

  /** One value per category (`config_*`, `cache_*`, `data_*` in the source). */
  datatype PerCategory<T> = PerCategory(config: T, cache: T, localData: T) {
    function Get(c: Category): T {
      match c
      case Config => config
      case Cache => cache
      case LocalData => localData
    }

    function Set(c: Category, v: T): (r: PerCategory<T>)
      ensures r.Get(c) == v
      ensures forall d :: d != c ==> r.Get(d) == Get(d)
    {
      match c
      case Config => this.(config := v)
      case Cache => this.(cache := v)
      case LocalData => this.(localData := v)
    }
  }

  datatype Entry = Entry(
    paths: PerCategory<seq<Path>>,
    sizes: PerCategory<nat>,
    installed: bool,
    title: string,
    icon: string)
  {
    /** MEntry::exists(): the entry still accounts for some data. */
    predicate Exists() {
      sizes.config > 0 || sizes.cache > 0 || sizes.localData > 0
    }
  }

  /** Every path listed, in any category. */
  function Listed(paths: PerCategory<seq<Path>>): set<Path> {
    Elems(paths.config) + Elems(paths.cache) + Elems(paths.localData)
  }

  /** Every path the entry lists. */
  function PathsOf(e: Entry): set<Path> {
    Listed(e.paths)
  }

  /** A default-constructed MEntry. */
  const Fresh: Entry := Entry(PerCategory([], [], []), PerCategory(0, 0, 0), false, "", "")

  /** The item-data roles of the list model. `OtherRole` stands for any role
      number the model does not serve. */
  datatype Role =
    | NameRole | TitleRole | IconRole | InstalledRole
    | ConfigSizeRole | CacheSizeRole | LocalDataSizeRole | SortRole
    | OtherRole(code: int)

  /** The role reporting a category's size. */
  function SizeRole(c: Category): Role {
    match c
    case Config => ConfigSizeRole
    case Cache => CacheSizeRole
    case LocalData => LocalDataSizeRole
  }

  /** processKnownPaths: every candidate path that exists is appended, in
      candidate order, to `paths`, and its size is added to `size`. */
  function ProcessKnownPaths(fs: FileSystem, paths: seq<Path>, size: nat, known: seq<Path>): (r: (seq<Path>, nat))
    ensures r.0 == paths + Existing(fs, known)
    ensures r.1 == size + SumSizes(fs, Existing(fs, known))
    decreases |known|
  {
    if |known| == 0 then (paths, size)
    else if PathExists(fs, known[0]) then
      var r := ProcessKnownPaths(fs, paths + [known[0]], size + GetSize(fs, known[0]), known[1..]);
      assert Existing(fs, known) == [known[0]] + Existing(fs, known[1..]);
      assert paths + [known[0]] + Existing(fs, known[1..]) == paths + Existing(fs, known);
      r
    else
      assert Existing(fs, known) == Existing(fs, known[1..]);
      ProcessKnownPaths(fs, paths, size, known[1..])
  }

  /** The candidate paths that exist on the filesystem, in candidate order. */
  function Existing(fs: FileSystem, known: seq<Path>): seq<Path> {
    if |known| == 0 then []
    else (if PathExists(fs, known[0]) then [known[0]] else []) + Existing(fs, known[1..])
  }

  /** `after` is `before` with some requested, nonempty categories zeroed:
      paths, install status, title and icon are untouched. */
  ghost predicate ClearedFrom(before: Entry, after: Entry, types: set<Category>) {
    && after.paths == before.paths
    && after.installed == before.installed
    && after.title == before.title
    && after.icon == before.icon
    && forall c: Category :: after.sizes.Get(c) == before.sizes.Get(c)
                             || (c in types && before.sizes.Get(c) > 0 && after.sizes.Get(c) == 0)
  }

  /** The entry holds data in some category that was not requested, so
      clearing it cannot empty it. */
  predicate HoldsUnrequested(e: Entry, types: set<Category>) {
    || (Config !in types && e.sizes.config > 0)
    || (Cache !in types && e.sizes.cache > 0)
    || (LocalData !in types && e.sizes.localData > 0)
  }

  /** The paths clearEntry may delete: those listed under every requested
      category whose size is nonzero. */
  function Targeted(e: Entry, types: set<Category>): set<Path> {
    (if Config in types && e.sizes.Get(Config) > 0 then Elems(e.paths.Get(Config)) else {})
    + (if Cache in types && e.sizes.Get(Cache) > 0 then Elems(e.paths.Get(Cache)) else {})
    + (if LocalData in types && e.sizes.Get(LocalData) > 0 then Elems(e.paths.Get(LocalData)) else {})
  }

  /** The targeted paths that removePaths actually attempts: those of every
      requested, nonzero category whose list holds no empty path (a list
      with an empty path is rejected whole). */
  function Erasable(e: Entry, types: set<Category>): set<Path> {
    (if Config in types && e.sizes.Get(Config) > 0 && "" !in e.paths.Get(Config) then Elems(e.paths.Get(Config)) else {})
    + (if Cache in types && e.sizes.Get(Cache) > 0 && "" !in e.paths.Get(Cache) then Elems(e.paths.Get(Cache)) else {})
    + (if LocalData in types && e.sizes.Get(LocalData) > 0 && "" !in e.paths.Get(LocalData)
       then Elems(e.paths.Get(LocalData)) else {})
  }

  /** One step of clearEntry deletes every path of its category that is
      removable when the step starts, if the category is attempted. */
  lemma ClearCategoryRemoves(fs: FileSystem, locked: set<Path>, e: Entry, c: Category, types: set<Category>, p: Path)
    requires c in types && e.sizes.Get(c) > 0 && "" !in e.paths.Get(c)
    requires p in e.paths.Get(c) && Removable(fs, locked, p)
    ensures p !in ClearCategory(fs, locked, e, c, types).fs
  {
    RemoveEachRemoves(fs, locked, e.paths.Get(c), p);
  }

  /** The targeted paths are among the entry's own. */
  lemma TargetedListed(e: Entry, types: set<Category>)
    ensures Targeted(e, types) <= PathsOf(e)
  {
  }

  /** An entry cleared with some categories targets no path it did not
      target before. */
  lemma ClearedNarrows(before: Entry, after: Entry, types: set<Category>)
    requires ClearedFrom(before, after, types)
    ensures Targeted(after, types) <= Targeted(before, types)
  {
  }

  /** The result of clearing an entry: the filesystem afterwards, the entry,
      the bytes deleted, the roles reported as changed and the paths whose
      deletion failed. */
  datatype Cleared = Cleared(fs: FileSystem, entry: Entry, deleted: nat, changed: seq<Role>, failed: seq<Path>)

  /** One `if` block of clearEntry. */
  function ClearCategory(fs: FileSystem, locked: set<Path>, e: Entry, c: Category, types: set<Category>): (r: Cleared)
    ensures ClearedFrom(e, r.entry, types)
    ensures forall d :: d != c ==> r.entry.sizes.Get(d) == e.sizes.Get(d)
    ensures r.changed == [] || r.changed == [SizeRole(c)]
    ensures r.changed == [SizeRole(c)] <==> r.entry.sizes.Get(c) != e.sizes.Get(c)
    ensures r.deleted == 0 <==> r.changed == []
    ensures r.fs.Keys <= fs.Keys
    ensures forall q :: q in r.fs ==> r.fs[q] == fs[q]
    ensures forall q :: q in fs && q !in e.paths.Get(c) ==> q in r.fs
    ensures !(c in types && e.sizes.Get(c) > 0) ==> r.fs == fs && r.entry == e && r.failed == []
    ensures c in types && e.sizes.Get(c) > 0 ==>
      var rm := RemovePaths(fs, locked, e.paths.Get(c));
      r.fs == rm.fs && r.failed == rm.failed && r.deleted == rm.reclaimed
  {
    if c in types && e.sizes.Get(c) > 0 then
      var rm := RemovePaths(fs, locked, e.paths.Get(c));
      if rm.reclaimed > 0 then
        Cleared(rm.fs, e.(sizes := e.sizes.Set(c, 0)), rm.reclaimed, [SizeRole(c)], rm.failed)
      else
        Cleared(rm.fs, e, 0, [], rm.failed)
    else
      Cleared(fs, e, 0, [], [])
  }

  /** clearEntry: config, then cache, then local data. A category is zeroed
      and its role reported only when it was requested, had a nonzero size
      and its removal reclaimed something; nothing else of the entry
      changes, and the bytes deleted are zero exactly when no role changed.
      On disk it only deletes, and only targeted paths. */
  function ClearEntry(fs: FileSystem, locked: set<Path>, e: Entry, types: set<Category>): (r: Cleared)
    ensures ClearedFrom(e, r.entry, types)
    ensures forall c :: SizeRole(c) in r.changed <==> r.entry.sizes.Get(c) != e.sizes.Get(c)
    ensures r.deleted == 0 <==> r.changed == []
    ensures r.deleted == 0 ==> r.entry == e
    ensures r.fs.Keys <= fs.Keys
    ensures forall q :: q in r.fs ==> r.fs[q] == fs[q]
    ensures forall q :: q in fs && q !in Targeted(e, types) ==> q in r.fs
  {
    var a := ClearCategory(fs, locked, e, Config, types);
    var l := ClearLater(a.fs, locked, a.entry, types);
    assert ConfigSizeRole !in l.changed;
    assert e.sizes == PerCategory(e.sizes.Get(Config), e.sizes.Get(Cache), e.sizes.Get(LocalData));
    Cleared(l.fs, l.entry, a.deleted + l.deleted, a.changed + l.changed, a.failed + l.failed)
  }

  /** The last two steps of clearEntry, cache then local data; the config
      category is left alone. */
  function ClearLater(fs: FileSystem, locked: set<Path>, e: Entry, types: set<Category>): (r: Cleared)
    ensures ClearedFrom(e, r.entry, types)
    ensures r.entry.sizes.Get(Config) == e.sizes.Get(Config)
    ensures forall c :: SizeRole(c) in r.changed <==> r.entry.sizes.Get(c) != e.sizes.Get(c)
    ensures r.deleted == 0 <==> r.changed == []
    ensures r.deleted == 0 ==> r.entry == e
    ensures r.fs.Keys <= fs.Keys
    ensures forall q :: q in r.fs ==> r.fs[q] == fs[q]
    ensures forall q :: q in fs && q !in Targeted(e, types) ==> q in r.fs
  {
    var b := ClearCategory(fs, locked, e, Cache, types);
    var d := ClearCategory(b.fs, locked, b.entry, LocalData, types);
    assert CacheSizeRole !in d.changed && LocalDataSizeRole !in b.changed;
    assert d.entry.sizes == PerCategory(d.entry.sizes.Get(Config), d.entry.sizes.Get(Cache), d.entry.sizes.Get(LocalData));
    assert e.sizes == PerCategory(e.sizes.Get(Config), e.sizes.Get(Cache), e.sizes.Get(LocalData));
    Cleared(d.fs, d.entry, b.deleted + d.deleted, b.changed + d.changed, b.failed + d.failed)
  }

  /** No path is listed under two categories of the entry. */
  predicate DisjointCategories(e: Entry) {
    && (forall q :: q in e.paths.config ==> q !in e.paths.cache && q !in e.paths.localData)
    && (forall q :: q in e.paths.cache ==> q !in e.paths.localData)
  }

  /** What one category would reclaim if it were cleared on its own. */
  function Reclaim(fs: FileSystem, locked: set<Path>, e: Entry, c: Category, types: set<Category>): nat {
    if c in types && e.sizes.Get(c) > 0 then RemovePaths(fs, locked, e.paths.Get(c)).reclaimed else 0
  }

  /** The paths one category would fail to delete if it were cleared on its own. */
  function FailedIn(fs: FileSystem, locked: set<Path>, e: Entry, c: Category, types: set<Category>): seq<Path> {
    if c in types && e.sizes.Get(c) > 0 then RemovePaths(fs, locked, e.paths.Get(c)).failed else []
  }

  lemma RemovePathsLocal(fs: FileSystem, fs': FileSystem, locked: set<Path>, paths: seq<Path>)
    requires AgreeOn(fs, fs', paths)
    ensures RemovePaths(fs, locked, paths).reclaimed == RemovePaths(fs', locked, paths).reclaimed
    ensures RemovePaths(fs, locked, paths).failed == RemovePaths(fs', locked, paths).failed
  {
    if "" !in paths {
      RemoveEachLocal(fs, fs', locked, paths);
    }
  }

  /** One step of clearEntry reclaims and fails exactly what its category
      would on any filesystem that agrees with the current one at that
      category's paths, and reports its role exactly when it reclaims. */
  lemma StepAccounting(fs0: FileSystem, fs: FileSystem, locked: set<Path>, e: Entry, c: Category, types: set<Category>)
    requires AgreeOn(fs0, fs, e.paths.Get(c))
    ensures var r := ClearCategory(fs, locked, e, c, types);
      && r.deleted == Reclaim(fs0, locked, e, c, types)
      && r.failed == FailedIn(fs0, locked, e, c, types)
      && (r.changed == [SizeRole(c)] <==> Reclaim(fs0, locked, e, c, types) > 0)
  {
    RemovePathsLocal(fs0, fs, locked, e.paths.Get(c));
  }

  /** The cache and local-data steps of clearEntry, when their lists share
      no path, account for exactly what each would reclaim and fail on its
      own, measured against any entry with the same lists and sizes there
      and any filesystem that agrees with the current one at those paths. */
  lemma LaterAccounting(fs0: FileSystem, fs: FileSystem, locked: set<Path>, e0: Entry, e: Entry, types: set<Category>)
    requires e.paths == e0.paths
    requires e.sizes.Get(Cache) == e0.sizes.Get(Cache) && e.sizes.Get(LocalData) == e0.sizes.Get(LocalData)
    requires AgreeOn(fs0, fs, e.paths.cache) && AgreeOn(fs0, fs, e.paths.localData)
    requires forall q :: q in e.paths.cache ==> q !in e.paths.localData
    ensures var l := ClearLater(fs, locked, e, types);
      && l.deleted == Reclaim(fs0, locked, e0, Cache, types) + Reclaim(fs0, locked, e0, LocalData, types)
      && l.failed == FailedIn(fs0, locked, e0, Cache, types) + FailedIn(fs0, locked, e0, LocalData, types)
      && ConfigSizeRole !in l.changed
      && (CacheSizeRole in l.changed <==> Reclaim(fs0, locked, e0, Cache, types) > 0)
      && (LocalDataSizeRole in l.changed <==> Reclaim(fs0, locked, e0, LocalData, types) > 0)
  {
    var b := ClearCategory(fs, locked, e, Cache, types);
    StepAccounting(fs0, fs, locked, e, Cache, types);
    assert b.entry.paths == e.paths && b.entry.sizes.Get(LocalData) == e.sizes.Get(LocalData);
    assert AgreeOn(fs0, b.fs, e.paths.localData);
    StepAccounting(fs0, b.fs, locked, b.entry, LocalData, types);
  }

  /** When no path belongs to two categories, clearing one category does
      not disturb the others: every category is zeroed and reported exactly
      when it is requested, nonzero, and its removal on the filesystem as it
      was before the call reclaims something; the bytes deleted are the sum
      of those removals and the failures are theirs, config first. */
  lemma ClearEntryAccounting(fs: FileSystem, locked: set<Path>, e: Entry, types: set<Category>)
    requires DisjointCategories(e)
    ensures var r := ClearEntry(fs, locked, e, types);
      && r.deleted == Reclaim(fs, locked, e, Config, types) + Reclaim(fs, locked, e, Cache, types)
                      + Reclaim(fs, locked, e, LocalData, types)
      && r.failed == FailedIn(fs, locked, e, Config, types) + FailedIn(fs, locked, e, Cache, types)
                     + FailedIn(fs, locked, e, LocalData, types)
      && forall c :: SizeRole(c) in r.changed <==> Reclaim(fs, locked, e, c, types) > 0
  {
    ClearEntryReclaims(fs, locked, e, types);
    ClearEntryFailures(fs, locked, e, types);
    ClearEntryRoles(fs, locked, e, types);
  }

  /** The config step followed by the later steps, each measured against
      the entry and the filesystem as they were before the call. */
  lemma ClearEntrySteps(fs: FileSystem, locked: set<Path>, e: Entry, types: set<Category>)
    requires DisjointCategories(e)
    ensures var a := ClearCategory(fs, locked, e, Config, types);
      var l := ClearLater(a.fs, locked, a.entry, types);
      && a.deleted == Reclaim(fs, locked, e, Config, types)
      && a.failed == FailedIn(fs, locked, e, Config, types)
      && (a.changed == [ConfigSizeRole] <==> Reclaim(fs, locked, e, Config, types) > 0)
      && (a.changed == [] || a.changed == [ConfigSizeRole])
      && l.deleted == Reclaim(fs, locked, e, Cache, types) + Reclaim(fs, locked, e, LocalData, types)
      && l.failed == FailedIn(fs, locked, e, Cache, types) + FailedIn(fs, locked, e, LocalData, types)
      && ConfigSizeRole !in l.changed
      && (CacheSizeRole in l.changed <==> Reclaim(fs, locked, e, Cache, types) > 0)
      && (LocalDataSizeRole in l.changed <==> Reclaim(fs, locked, e, LocalData, types) > 0)
  {
    var a := ClearCategory(fs, locked, e, Config, types);
    StepAccounting(fs, fs, locked, e, Config, types);
    assert AgreeOn(fs, a.fs, e.paths.cache) && AgreeOn(fs, a.fs, e.paths.localData);
    LaterAccounting(fs, a.fs, locked, e, a.entry, types);
  }

  /** The bytes clearEntry deletes are the sum of what each category would
      reclaim on its own, when no path belongs to two categories. */
  lemma ClearEntryReclaims(fs: FileSystem, locked: set<Path>, e: Entry, types: set<Category>)
    requires DisjointCategories(e)
    ensures ClearEntry(fs, locked, e, types).deleted
            == Reclaim(fs, locked, e, Config, types) + Reclaim(fs, locked, e, Cache, types)
               + Reclaim(fs, locked, e, LocalData, types)
  {
    ClearEntrySteps(fs, locked, e, types);
  }

  /** The paths clearEntry fails to delete are those each category would
      fail on its own, config first, when no path belongs to two categories. */
  lemma ClearEntryFailures(fs: FileSystem, locked: set<Path>, e: Entry, types: set<Category>)
    requires DisjointCategories(e)
    ensures ClearEntry(fs, locked, e, types).failed
            == FailedIn(fs, locked, e, Config, types) + FailedIn(fs, locked, e, Cache, types)
               + FailedIn(fs, locked, e, LocalData, types)
  {
    ClearEntrySteps(fs, locked, e, types);
    var fc, fk, fl := FailedIn(fs, locked, e, Config, types), FailedIn(fs, locked, e, Cache, types),
                      FailedIn(fs, locked, e, LocalData, types);
    assert fc + (fk + fl) == fc + fk + fl;
  }

  /** clearEntry reports a category's size role exactly when that category
      would reclaim something on its own, when no path belongs to two
      categories. */
  lemma ClearEntryRoles(fs: FileSystem, locked: set<Path>, e: Entry, types: set<Category>)
    requires DisjointCategories(e)
    ensures forall c :: SizeRole(c) in ClearEntry(fs, locked, e, types).changed
                        <==> Reclaim(fs, locked, e, c, types) > 0
  {
    ClearEntrySteps(fs, locked, e, types);
    var r := ClearEntry(fs, locked, e, types);
    forall c
      ensures SizeRole(c) in r.changed <==> Reclaim(fs, locked, e, c, types) > 0
    {
      match c
      case Config => {}
      case Cache => {}
      case LocalData => {}
    }
  }

  /** One step of clearEntry depends only on what the filesystem holds at
      the entry's own paths, and leaves two filesystems that agreed there
      still agreeing. */
  lemma ClearCategoryLocal(fs: FileSystem, fs': FileSystem, locked: set<Path>, e: Entry, c: Category,
                           types: set<Category>)
    requires AgreeAt(fs, fs', PathsOf(e))
    ensures var r := ClearCategory(fs, locked, e, c, types);
      var r' := ClearCategory(fs', locked, e, c, types);
      && r.entry == r'.entry && r.deleted == r'.deleted && r.changed == r'.changed && r.failed == r'.failed
      && AgreeAt(r.fs, r'.fs, PathsOf(e))
  {
    assert Elems(e.paths.Get(c)) <= PathsOf(e);
    RemovePathsAgree(fs, fs', locked, e.paths.Get(c), PathsOf(e));
  }

  /** clearEntry depends only on what the filesystem holds at the entry's
      own paths: two filesystems that agree there give the same entry, the
      same bytes deleted, the same roles and the same failures. */
  lemma ClearEntryLocal(fs: FileSystem, fs': FileSystem, locked: set<Path>, e: Entry, types: set<Category>)
    requires AgreeAt(fs, fs', PathsOf(e))
    ensures var r := ClearEntry(fs, locked, e, types);
      var r' := ClearEntry(fs', locked, e, types);
      r.entry == r'.entry && r.deleted == r'.deleted && r.changed == r'.changed && r.failed == r'.failed
  {
    var a := ClearCategory(fs, locked, e, Config, types);
    var a' := ClearCategory(fs', locked, e, Config, types);
    ClearCategoryLocal(fs, fs', locked, e, Config, types);
    assert PathsOf(a.entry) == PathsOf(e);
    var b := ClearCategory(a.fs, locked, a.entry, Cache, types);
    var b' := ClearCategory(a'.fs, locked, a.entry, Cache, types);
    ClearCategoryLocal(a.fs, a'.fs, locked, a.entry, Cache, types);
    assert PathsOf(b.entry) == PathsOf(e);
    ClearCategoryLocal(b.fs, b'.fs, locked, b.entry, LocalData, types);
  }

  /** clearEntry removes nothing but the entry's own paths. */
  lemma ClearEntryFrame(fs: FileSystem, locked: set<Path>, e: Entry, types: set<Category>)
    ensures forall q :: q in fs && q !in PathsOf(e) ==> q in ClearEntry(fs, locked, e, types).fs
  {
    TargetedListed(e, types);
  }

  /** Data in a category that was not requested survives clearEntry, so
      the entry still exists afterwards. */
  lemma ClearKeepsUnrequested(fs: FileSystem, locked: set<Path>, e: Entry, types: set<Category>, c: Category)
    requires c !in types && e.sizes.Get(c) > 0
    ensures var r := ClearEntry(fs, locked, e, types);
      r.entry.sizes.Get(c) == e.sizes.Get(c) && r.entry.Exists()
  {
    var r := ClearEntry(fs, locked, e, types);
    assert r.entry.sizes.Get(c) == e.sizes.Get(c);
    match c
    case Config => {}
    case Cache => {}
    case LocalData => {}
  }

  /** clearEntry deletes every path it attempts that is removable before
      the call: a path listed under a requested, nonzero category whose list
      holds no empty path. */
  lemma ClearEntryRemoves(fs: FileSystem, locked: set<Path>, e: Entry, types: set<Category>, p: Path)
    requires p in Erasable(e, types) && Removable(fs, locked, p)
    ensures p !in ClearEntry(fs, locked, e, types).fs
  {
    var a := ClearCategory(fs, locked, e, Config, types);
    if Config in types && e.sizes.Get(Config) > 0 && "" !in e.paths.Get(Config) && p in e.paths.Get(Config) {
      ClearCategoryRemoves(fs, locked, e, Config, types, p);
    } else {
      assert p in a.fs && a.fs[p] == fs[p];
      ClearLaterRemoves(a.fs, locked, a.entry, types, p);
    }
  }

  /** The cache and local-data steps of clearEntry delete every path they
      attempt that is removable before they start. */
  lemma ClearLaterRemoves(fs: FileSystem, locked: set<Path>, e: Entry, types: set<Category>, p: Path)
    requires || (Cache in types && e.sizes.Get(Cache) > 0 && "" !in e.paths.cache && p in e.paths.cache)
             || (LocalData in types && e.sizes.Get(LocalData) > 0 && "" !in e.paths.localData && p in e.paths.localData)
    requires Removable(fs, locked, p)
    ensures p !in ClearLater(fs, locked, e, types).fs
  {
    var b := ClearCategory(fs, locked, e, Cache, types);
    if Cache in types && e.sizes.Get(Cache) > 0 && "" !in e.paths.cache && p in e.paths.cache {
      ClearCategoryRemoves(fs, locked, e, Cache, types, p);
    } else {
      assert p in b.fs && b.fs[p] == fs[p];
      ClearCategoryRemoves(b.fs, locked, b.entry, LocalData, types, p);
    }
  }
}

=== FILE: install.dfy ===
/** The last pass of `MModel::resetImpl`: an entry whose name has a
    `.desktop` file in one of the applications directories is installed; its
    title and icon name are read from the first such file, and its icon is
    the first icon template that names an existing file.

    Reading a `.desktop` file is an input: a map from file path to the
    values of its keys, as `QSettings` would report them. */
module Install {
  import opened Common
  import opened Storage
  import opened Entries

  /** A path template with a single place marker `%1`, as the text before
      and after the marker. */
  datatype Template = Template(before: string, after: string) {
    /** `QString::arg`: the marker replaced by a value. */
    function Arg(v: string): string {
      before + v + after
    }
  }

  /** The icon templates, tried in this order. */
  const IconTemplates: seq<Template> := [
    Template("/usr/share/icons/hicolor/86x86/apps/", ".png"),
    Template("/usr/share/themes/sailfish-default/meegotouch/z1.0/icons/", ".png")
  ]

  const NameKey: string := "Desktop Entry/Name"
  const IconKey: string := "Desktop Entry/Icon"

  /** The template `%1/%2.desktop` filled with a directory and a name. */
  function DesktopPath(dir: Path, name: Name): Path {
    dir + "/" + name + ".desktop"
  }

  /** The values each `.desktop` file holds, by key. */
  type DesktopFiles = map<Path, map<string, string>>

  /** The value a file holds for a key, if any. */
  function IniValue(ini: DesktopFiles, file: Path, key: string): Option<string> {
    if file in ini && key in ini[file] then Some(ini[file][key]) else None
  }

  /** The position of the first candidate that is a regular file, or the
      number of candidates when none is. */
  function FirstFile(fs: FileSystem, candidates: seq<Path>): (i: nat)
    ensures i <= |candidates|
    ensures forall j :: 0 <= j < i ==> !IsFile(fs, candidates[j])
    ensures i < |candidates| ==> IsFile(fs, candidates[i])
    decreases |candidates|
  {
    if |candidates| == 0 then 0
    else if IsFile(fs, candidates[0]) then 0
    else 1 + FirstFile(fs, candidates[1..])
  }

  /** The `.desktop` files looked for, one per applications directory, in
      directory order. */
  function DesktopCandidates(dirs: seq<Path>, name: Name): (r: seq<Path>)
    ensures |r| == |dirs|
    ensures forall j :: 0 <= j < |dirs| ==> r[j] == DesktopPath(dirs[j], name)
  {
    if |dirs| == 0 then [] else [DesktopPath(dirs[0], name)] + DesktopCandidates(dirs[1..], name)
  }

  /** The icon files looked for, one per template, in template order. */
  function IconCandidates(iconName: string): (r: seq<Path>)
    ensures |r| == |IconTemplates|
    ensures forall j :: 0 <= j < |IconTemplates| ==> r[j] == IconTemplates[j].Arg(iconName)
  {
    [IconTemplates[0].Arg(iconName), IconTemplates[1].Arg(iconName)]
  }

  /** The install-status pass for one entry: the first `.desktop` file found
      marks it installed and gives its title (empty when the key is
      missing) and icon name (the entry's own name when the key is missing);
      the first icon template naming an existing file becomes its icon.
      Paths and sizes are never touched. */
  function Resolve(fs: FileSystem, ini: DesktopFiles, dirs: seq<Path>, name: Name, e: Entry): (r: Entry)
    ensures r.paths == e.paths && r.sizes == e.sizes
  {
    var desktops := DesktopCandidates(dirs, name);
    var i := FirstFile(fs, desktops);
    if i == |desktops| then e
    else
      var file := desktops[i];
      var icons := IconCandidates(IniValue(ini, file, IconKey).GetOr(name));
      var j := FirstFile(fs, icons);
      e.(installed := true,
         title := IniValue(ini, file, NameKey).GetOr(""),
         icon := if j < |icons| then icons[j] else e.icon)
  }

  /** Some applications directory holds a `.desktop` file for the name. */
  predicate HasDesktopFile(fs: FileSystem, dirs: seq<Path>, name: Name) {
    exists j :: 0 <= j < |dirs| && IsFile(fs, DesktopPath(dirs[j], name))
  }

  /** An entry is installed afterwards exactly when it was, or a
      `.desktop` file exists for its name; without such a file the entry is
      left as it was. */
  lemma ResolveInstalled(fs: FileSystem, ini: DesktopFiles, dirs: seq<Path>, name: Name, e: Entry)
    ensures var r := Resolve(fs, ini, dirs, name, e);
      && (r.installed <==> e.installed || HasDesktopFile(fs, dirs, name))
      && (!HasDesktopFile(fs, dirs, name) ==> r == e)
  {
    var desktops := DesktopCandidates(dirs, name);
    var i := FirstFile(fs, desktops);
    if i < |desktops| {
      assert IsFile(fs, DesktopPath(dirs[i], name));
    } else {
      forall j | 0 <= j < |dirs| ensures !IsFile(fs, DesktopPath(dirs[j], name)) {
        assert desktops[j] == DesktopPath(dirs[j], name);
      }
    }
  }

  /** When the `.desktop` file of the `k`-th directory is the first that
      exists, the title is that file's name value (empty if it has none) and
      the icon is the first existing file among the templates filled with
      the file's icon value (the entry's name if it has none), or the old
      icon when no template names an existing file. */
  lemma ResolveReadsFirst(fs: FileSystem, ini: DesktopFiles, dirs: seq<Path>, name: Name, e: Entry, k: nat)
    requires k < |dirs| && IsFile(fs, DesktopPath(dirs[k], name))
    requires forall j :: 0 <= j < k ==> !IsFile(fs, DesktopPath(dirs[j], name))
    ensures var r := Resolve(fs, ini, dirs, name, e);
      var file := DesktopPath(dirs[k], name);
      var iconName := IniValue(ini, file, IconKey).GetOr(name);
      && r.installed
      && r.title == IniValue(ini, file, NameKey).GetOr("")
      && (forall t :: 0 <= t < |IconTemplates| && IsFile(fs, IconTemplates[t].Arg(iconName))
                      && (forall u :: 0 <= u < t ==> !IsFile(fs, IconTemplates[u].Arg(iconName)))
                      ==> r.icon == IconTemplates[t].Arg(iconName))
      && ((forall t :: 0 <= t < |IconTemplates| ==> !IsFile(fs, IconTemplates[t].Arg(iconName))) ==> r.icon == e.icon)
  {
    var desktops := DesktopCandidates(dirs, name);
    var i := FirstFile(fs, desktops);
    assert desktops[k] == DesktopPath(dirs[k], name);
    assert i == k;
    var iconName := IniValue(ini, desktops[k], IconKey).GetOr(name);
    var icons := IconCandidates(iconName);
    var j := FirstFile(fs, icons);
    forall t | 0 <= t < |IconTemplates| && IsFile(fs, IconTemplates[t].Arg(iconName))
               && (forall u :: 0 <= u < t ==> !IsFile(fs, IconTemplates[u].Arg(iconName)))
      ensures j == t
    {
      assert icons[t] == IconTemplates[t].Arg(iconName);
    }
    if j < |icons| {
      assert icons[j] == IconTemplates[j].Arg(iconName);
    }
  }

  /** The install-status pass over every entry of the map. */
  function ResolveAll(fs: FileSystem, ini: DesktopFiles, dirs: seq<Path>, entries: map<Name, Entry>)
    : (r: map<Name, Entry>)
    ensures r.Keys == entries.Keys
  {
    map k | k in entries :: Resolve(fs, ini, dirs, k, entries[k])
  }
}

=== FILE: registry.dfy ===
/** The registry behind the leftover-data list: the ordered name list
    (`m_names`), the name-to-entry map (`m_entries`) and the aggregate
    totals, with the two deletion commands `deleteDataImpl` and
    `deleteUnusedDataImpl`.

    Each command is modelled twice. The `AsWritten` version follows the
    source exactly: totals are recomputed only when some bytes were
    deleted, with the config and local-data totals swapped. The plain
    version recomputes the totals whenever a row was removed as well, with
    each total summing its own category; it keeps the totals in agreement
    with the entries. */
module Registry {
  import opened Common
  import opened Storage
  import opened Entries
  import opened Totals

  datatype Registry = Registry(names: seq<Name>, entries: map<Name, Entry>, totals: Totals)

  /** The list and the map describe the same rows: no name twice, and the
      names listed are exactly the keys of the map. */
  predicate Synced(names: seq<Name>, entries: map<Name, Entry>) {
    IsEnumeration(names, entries.Keys)
  }

  predicate Valid(reg: Registry) {
    Synced(reg.names, reg.entries)
  }

  /** Valid, and every total is the sum of its measure over the entries. */
  ghost predicate Consistent(reg: Registry) {
    Valid(reg) && Agree(reg.totals, reg.entries)
  }

  /** Notifications a deletion emits, in order. */
  datatype Event =
    | DeletionError(path: Path)
    | RowRemoved(row: int)
    | RowChanged(row: int, roles: seq<Role>)
    | TotalChanged
    | DataDeleted(bytes: nat)

  /** The state after a deletion command: registry, filesystem, the bytes
      deleted and the notifications emitted. */
  datatype Outcome = Outcome(reg: Registry, fs: FileSystem, deleted: nat, events: seq<Event>)

  /** Name list and map after clearing one or more entries, before the
      totals are looked at; `pruned` tells whether a row was removed. */
  datatype Mutation = Mutation(
    names: seq<Name>,
    entries: map<Name, Entry>,
    fs: FileSystem,
    deleted: nat,
    pruned: bool,
    events: seq<Event>)

  function ErrorEvents(paths: seq<Path>): (r: seq<Event>)
    ensures |r| == |paths|
    ensures forall i :: 0 <= i < |r| ==> r[i] == DeletionError(paths[i])
  {
    if |paths| == 0 then [] else [DeletionError(paths[0])] + ErrorEvents(paths[1..])
  }

  /** The shared body of both deletion commands for one entry: clear it,
      then remove its row from both structures when it no longer exists, or
      report the changed roles at its row otherwise. Every other entry is
      untouched and the surviving names keep their relative order. */
  function ClearOne(names: seq<Name>, entries: map<Name, Entry>, fs: FileSystem, locked: set<Path>,
                    name: Name, types: set<Category>): (m: Mutation)
    requires Synced(names, entries) && name in entries
    ensures Synced(m.names, m.entries)
    ensures m.entries.Keys <= entries.Keys
    ensures forall k :: k in entries && k != name ==> k in m.entries && m.entries[k] == entries[k]
    ensures m.pruned <==> name !in m.entries
    ensures name in m.entries ==> m.entries[name].Exists() && ClearedFrom(entries[name], m.entries[name], types)
    ensures m.deleted == 0 && !m.pruned ==> m.entries == entries
    ensures var cl := ClearEntry(fs, locked, entries[name], types);
      && m.fs == cl.fs && m.deleted == cl.deleted
      && (name in m.entries <==> cl.entry.Exists())
      && (name in m.entries ==> m.entries[name] == cl.entry)
  {
    var cl := ClearEntry(fs, locked, entries[name], types);
    var row := IndexOf(names, name);
    var errors := ErrorEvents(cl.failed);
    if !cl.entry.Exists() then
      PruneKeepsOrder(names, entries, name);
      OthersKept(entries, name, entries - {name});
      Mutation(RemoveOne(names, name), entries - {name}, cl.fs, cl.deleted, true, errors + [RowRemoved(row)])
    else
      UpdateKeepsOrder(names, entries, name, cl.entry);
      OthersKept(entries, name, entries[name := cl.entry]);
      assert cl.deleted == 0 ==> entries[name := cl.entry] == entries;
      Mutation(names, entries[name := cl.entry], cl.fs, cl.deleted, false, errors + [RowChanged(row, cl.changed)])
  }

  /** The names that survive clearing one entry keep their order. */
  lemma ClearOneKeepsOrder(names: seq<Name>, entries: map<Name, Entry>, fs: FileSystem, locked: set<Path>,
                           name: Name, types: set<Category>)
    requires Synced(names, entries) && name in entries
    ensures var m := ClearOne(names, entries, fs, locked, name, types);
      m.names == Keep(names, m.entries.Keys)
  {
    var cl := ClearEntry(fs, locked, entries[name], types);
    if !cl.entry.Exists() {
      PruneKeepsOrder(names, entries, name);
    } else {
      UpdateKeepsOrder(names, entries, name, cl.entry);
    }
  }

  /** Removing or replacing the entry under `name` keeps every other key
      and its entry. */
  lemma OthersKept(entries: map<Name, Entry>, name: Name, after: map<Name, Entry>)
    requires name in entries
    requires after == entries - {name} || (name in after && after == entries[name := after[name]])
    ensures after.Keys <= entries.Keys
    ensures forall k :: k in entries && k != name ==> k in after && after[k] == entries[k]
  {
  }

  /** What clearing one entry does to the list and what it reports: a
      removed row is the first occurrence of the name, a surviving row stays
      where it was; the notifications are one deletion error per failed path,
      in order, followed by a single row notification at the entry's row
      (a removal exactly when the row was removed). */
  lemma ClearOneRows(names: seq<Name>, entries: map<Name, Entry>, fs: FileSystem, locked: set<Path>,
                     name: Name, types: set<Category>)
    requires Synced(names, entries) && name in entries
    ensures var m := ClearOne(names, entries, fs, locked, name, types);
      && (m.pruned ==> m.names == RemoveOne(names, name))
      && (!m.pruned ==> m.names == names)
      && |m.events| > 0
      && m.events[..|m.events| - 1] == ErrorEvents(ClearEntry(fs, locked, entries[name], types).failed)
      && AtRowOf(Last(m.events), names, name)
      && (Last(m.events).RowRemoved? <==> m.pruned)
  {
    var cl := ClearEntry(fs, locked, entries[name], types);
    var errors := ErrorEvents(cl.failed);
    var m := ClearOne(names, entries, fs, locked, name, types);
    assert name in names;
    assert m.events == errors + [Last(m.events)];
    assert m.events[..|m.events| - 1] == errors;
  }

  /** Removing a row from both structures keeps them in sync and the other
      names in order. */
  lemma PruneKeepsOrder(names: seq<Name>, entries: map<Name, Entry>, name: Name)
    requires Synced(names, entries) && name in entries
    ensures Synced(RemoveOne(names, name), entries - {name})
    ensures RemoveOne(names, name) == Keep(names, (entries - {name}).Keys)
  {
    RemoveOneIsKeep(names, name);
    assert (entries - {name}).Keys == Elems(names) - {name};
    KeepDistinct(names, (entries - {name}).Keys);
  }

  /** Replacing an entry in place changes neither the key set nor the list. */
  lemma UpdateKeepsOrder(names: seq<Name>, entries: map<Name, Entry>, name: Name, e: Entry)
    requires Synced(names, entries) && name in entries
    ensures Synced(names, entries[name := e])
    ensures names == Keep(names, entries[name := e].Keys)
  {
    assert entries[name := e].Keys == entries.Keys;
    KeepAll(names, entries.Keys);
  }

  /** A row notification that points at the row where `name` is listed. */
  predicate AtRowOf(ev: Event, names: seq<Name>, name: Name) {
    (ev.RowRemoved? || ev.RowChanged?) && 0 <= ev.row < |names| && names[ev.row] == name
  }

  /** The end of a deletion command: recompute the totals or keep the old
      ones, then emit `totalChanged` (when recomputed) and `dataDeleted`
      (when bytes were deleted). */
  function Settle(reg: Registry, m: Mutation, asWritten: bool): (o: Outcome)
    requires Synced(m.names, m.entries)
    ensures o.reg.names == m.names && o.reg.entries == m.entries
    ensures o.fs == m.fs && o.deleted == m.deleted
    ensures !asWritten ==> (m.deleted > 0 || m.pruned ==> Agree(o.reg.totals, m.entries))
    ensures asWritten ==> (m.deleted > 0 ==> AgreeAsWritten(o.reg.totals, m.entries))
    ensures (if asWritten then m.deleted == 0 else m.deleted == 0 && !m.pruned) ==> o.reg.totals == reg.totals
    ensures |o.events| >= |m.events| && o.events[..|m.events|] == m.events
    ensures TotalChanged in o.events[|m.events|..] <==> (if asWritten then m.deleted > 0 else m.deleted > 0 || m.pruned)
    ensures DataDeleted(m.deleted) in o.events[|m.events|..] <==> m.deleted > 0
  {
    var recompute := if asWritten then m.deleted > 0 else m.deleted > 0 || m.pruned;
    var totals :=
      if !recompute then reg.totals
      else if asWritten then CalculateTotalAsWritten(m.entries, m.names)
      else CalculateTotal(m.entries, m.names);
    var tail := (if recompute then [TotalChanged] else []) + (if m.deleted > 0 then [DataDeleted(m.deleted)] else []);
    Outcome(Registry(m.names, m.entries, totals), m.fs, m.deleted, m.events + tail)
  }

  /** deleteDataImpl, corrected: an unknown name changes nothing; otherwise
      the entry is cleared and either removed from both the list and the map
      (the other names keeping their order) or left at its row, and the
      totals stay in agreement with the entries. */
  function DeleteData(reg: Registry, fs: FileSystem, locked: set<Path>, name: Name, types: set<Category>): (o: Outcome)
    requires Valid(reg)
    ensures name !in reg.entries ==> o == Outcome(reg, fs, 0, [])
    ensures Valid(o.reg)
    ensures Consistent(reg) ==> Consistent(o.reg)
    ensures o.reg.entries.Keys <= reg.entries.Keys
    ensures o.reg.names == Keep(reg.names, o.reg.entries.Keys)
    ensures forall k :: k in reg.entries && k != name ==> k in o.reg.entries && o.reg.entries[k] == reg.entries[k]
    ensures name in reg.entries ==>
      var cl := ClearEntry(fs, locked, reg.entries[name], types);
      && o.fs == cl.fs && o.deleted == cl.deleted
      && (name in o.reg.entries <==> cl.entry.Exists())
      && (name in o.reg.entries ==> o.reg.entries[name] == cl.entry)
  {
    if name !in reg.entries then
      KeepAll(reg.names, reg.entries.Keys);
      Outcome(reg, fs, 0, [])
    else
      var m := ClearOne(reg.names, reg.entries, fs, locked, name, types);
      ClearOneKeepsOrder(reg.names, reg.entries, fs, locked, name, types);
      Settle(reg, m, false)
  }

  /** What deleteDataImpl does to the named row: the bytes deleted and the
      filesystem afterwards are those clearEntry gives; the row is removed
      (the first occurrence of its name) exactly when the cleared entry no
      longer exists, and otherwise stays where it was holding the cleared
      entry. */
  lemma DeleteDataTarget(reg: Registry, fs: FileSystem, locked: set<Path>, name: Name, types: set<Category>)
    requires Valid(reg) && name in reg.entries
    ensures var o := DeleteData(reg, fs, locked, name, types);
      var cl := ClearEntry(fs, locked, reg.entries[name], types);
      && o.deleted == cl.deleted && o.fs == cl.fs
      && (name !in o.reg.entries <==> !cl.entry.Exists())
      && (name !in o.reg.entries ==> o.reg.names == RemoveOne(reg.names, name))
      && (name in o.reg.entries ==> o.reg.names == reg.names && o.reg.entries[name] == cl.entry)
  {
    ClearOneRows(reg.names, reg.entries, fs, locked, name, types);
  }

  /** deleteDataImpl as written: the same clearing, but the totals are
      recomputed (swapped) only when bytes were deleted, so removing a row
      that held no data leaves them stale. */
  function DeleteDataAsWritten(reg: Registry, fs: FileSystem, locked: set<Path>, name: Name, types: set<Category>): (o: Outcome)
    requires Valid(reg)
    ensures name !in reg.entries ==> o == Outcome(reg, fs, 0, [])
    ensures Valid(o.reg)
    ensures o.deleted > 0 ==> AgreeAsWritten(o.reg.totals, o.reg.entries)
    ensures o.deleted == 0 ==> o.reg.totals == reg.totals
    ensures o.reg.names == Keep(reg.names, o.reg.entries.Keys)
    ensures forall k :: k in reg.entries && k != name ==> k in o.reg.entries && o.reg.entries[k] == reg.entries[k]
    ensures name in reg.entries ==>
      var cl := ClearEntry(fs, locked, reg.entries[name], types);
      && o.fs == cl.fs && o.deleted == cl.deleted
      && (name in o.reg.entries <==> cl.entry.Exists())
      && (name in o.reg.entries ==> o.reg.entries[name] == cl.entry)
  {
    if name !in reg.entries then
      KeepAll(reg.names, reg.entries.Keys);
      Outcome(reg, fs, 0, [])
    else
      var m := ClearOne(reg.names, reg.entries, fs, locked, name, types);
      ClearOneKeepsOrder(reg.names, reg.entries, fs, locked, name, types);
      Settle(reg, m, true)
  }

  /** The loop of deleteUnusedDataImpl over the keys in iteration order:
      installed entries are skipped, every other entry is cleared and, if it
      no longer exists, removed. The list and the map stay in sync and only
      lose keys. On disk it only deletes, and only the targeted paths of the
      visited uninstalled entries: installed entries, categories that were
      not requested and empty categories lose nothing to their own
      clearing. */
  function Sweep(names: seq<Name>, entries: map<Name, Entry>, fs: FileSystem, locked: set<Path>,
                 types: set<Category>, order: seq<Name>): (m: Mutation)
    requires Synced(names, entries)
    ensures Synced(m.names, m.entries)
    ensures m.entries.Keys <= entries.Keys
    ensures m.fs.Keys <= fs.Keys
    ensures forall q :: q in m.fs ==> m.fs[q] == fs[q]
    ensures forall q :: q in fs && q !in SweepTargets(entries, types, order) ==> q in m.fs
    decreases |order|
  {
    if |order| == 0 then Mutation(names, entries, fs, 0, false, [])
    else
      var k := order[0];
      if k !in entries || entries[k].installed then
        Sweep(names, entries, fs, locked, types, order[1..])
      else
        var s := ClearOne(names, entries, fs, locked, k, types);
        ClearOneNarrows(names, entries, fs, locked, k, types, order[1..]);
        var rest := Sweep(s.names, s.entries, s.fs, locked, types, order[1..]);
        Mutation(rest.names, rest.entries, rest.fs, s.deleted + rest.deleted, s.pruned || rest.pruned,
                 s.events + rest.events)
  }

  /** The names that survive the sweep keep their relative order. */
  lemma {:induction false} SweepKeepsOrder(names: seq<Name>, entries: map<Name, Entry>, fs: FileSystem,
                                          locked: set<Path>, types: set<Category>, order: seq<Name>)
    requires Synced(names, entries)
    ensures var m := Sweep(names, entries, fs, locked, types, order);
      m.names == Keep(names, m.entries.Keys)
    decreases |order|
  {
    if |order| == 0 {
      KeepAll(names, entries.Keys);
    } else {
      var k := order[0];
      if k !in entries || entries[k].installed {
        SweepKeepsOrder(names, entries, fs, locked, types, order[1..]);
      } else {
        var s := ClearOne(names, entries, fs, locked, k, types);
        var rest := Sweep(s.names, s.entries, s.fs, locked, types, order[1..]);
        assert Sweep(names, entries, fs, locked, types, order).names == rest.names;
        ClearOneKeepsOrder(names, entries, fs, locked, k, types);
        SweepKeepsOrder(s.names, s.entries, s.fs, locked, types, order[1..]);
        KeepKeep(names, s.entries.Keys, rest.entries.Keys);
        assert s.entries.Keys * rest.entries.Keys == rest.entries.Keys;
      }
    }
  }

  /** An entry the sweep does not visit, or an installed one, comes out
      exactly as it went in. */
  lemma {:induction false} SweepSpares(names: seq<Name>, entries: map<Name, Entry>, fs: FileSystem,
                                      locked: set<Path>, types: set<Category>, order: seq<Name>, j: Name)
    requires Synced(names, entries)
    requires j in entries && (j !in order || entries[j].installed)
    ensures var m := Sweep(names, entries, fs, locked, types, order);
      j in m.entries && m.entries[j] == entries[j]
    decreases |order|
  {
    if |order| > 0 {
      var k := order[0];
      if k !in entries || entries[k].installed {
        SweepSpares(names, entries, fs, locked, types, order[1..], j);
      } else {
        var s := ClearOne(names, entries, fs, locked, k, types);
        assert Sweep(names, entries, fs, locked, types, order).entries
               == Sweep(s.names, s.entries, s.fs, locked, types, order[1..]).entries;
        assert j != k;
        SweepSpares(s.names, s.entries, s.fs, locked, types, order[1..], j);
      }
    }
  }

  /** A visited uninstalled entry that survives the sweep has been cleared
      with the requested categories and still exists. */
  lemma {:induction false} SweepClearedSurvivor(names: seq<Name>, entries: map<Name, Entry>, fs: FileSystem,
                                      locked: set<Path>, types: set<Category>, order: seq<Name>, j: Name)
    requires Synced(names, entries)
    requires Distinct(order)
    requires j in order && j in entries && !entries[j].installed
    ensures var m := Sweep(names, entries, fs, locked, types, order);
      j in m.entries ==> m.entries[j].Exists() && ClearedFrom(entries[j], m.entries[j], types)
    decreases |order|
  {
    var k := order[0];
    var tail := order[1..];
    assert Distinct(tail);
    if k !in entries || entries[k].installed {
      assert j in tail;
      SweepClearedSurvivor(names, entries, fs, locked, types, tail, j);
    } else {
      var s := ClearOne(names, entries, fs, locked, k, types);
      if j == k {
        assert k !in tail;
        if k in s.entries {
          SweepSpares(s.names, s.entries, s.fs, locked, types, tail, k);
        }
      } else {
        assert j in tail;
        SweepClearedSurvivor(s.names, s.entries, s.fs, locked, types, tail, j);
      }
    }
  }

  /** The sweep removed a row exactly when it lost a key. */
  lemma {:induction false} SweepPrunes(names: seq<Name>, entries: map<Name, Entry>, fs: FileSystem,
                                      locked: set<Path>, types: set<Category>, order: seq<Name>)
    requires Synced(names, entries)
    ensures var m := Sweep(names, entries, fs, locked, types, order);
      m.pruned <==> m.entries.Keys != entries.Keys
    decreases |order|
  {
    if |order| > 0 {
      var k := order[0];
      if k !in entries || entries[k].installed {
        SweepPrunes(names, entries, fs, locked, types, order[1..]);
      } else {
        var s := ClearOne(names, entries, fs, locked, k, types);
        var rest := Sweep(s.names, s.entries, s.fs, locked, types, order[1..]);
        var m := Sweep(names, entries, fs, locked, types, order);
        assert m.entries == rest.entries && (m.pruned <==> s.pruned || rest.pruned);
        SweepPrunes(s.names, s.entries, s.fs, locked, types, order[1..]);
        assert s.pruned <==> s.entries.Keys != entries.Keys by {
          if !s.pruned {
            assert forall j :: j in entries ==> j in s.entries;
          }
        }
      }
    }
  }

  /** A sweep that deleted nothing changed no surviving entry. */
  lemma {:induction false} SweepIdle(names: seq<Name>, entries: map<Name, Entry>, fs: FileSystem,
                                    locked: set<Path>, types: set<Category>, order: seq<Name>, j: Name)
    requires Synced(names, entries)
    ensures var m := Sweep(names, entries, fs, locked, types, order);
      m.deleted == 0 && j in m.entries ==> m.entries[j] == entries[j]
    decreases |order|
  {
    if |order| > 0 {
      var k := order[0];
      if k !in entries || entries[k].installed {
        SweepIdle(names, entries, fs, locked, types, order[1..], j);
      } else {
        var s := ClearOne(names, entries, fs, locked, k, types);
        var rest := Sweep(s.names, s.entries, s.fs, locked, types, order[1..]);
        var m := Sweep(names, entries, fs, locked, types, order);
        assert m.entries == rest.entries && m.deleted == s.deleted + rest.deleted;
        SweepIdle(s.names, s.entries, s.fs, locked, types, order[1..], j);
        if m.deleted == 0 && j in m.entries {
          assert j in s.entries;
          if s.pruned {
            assert j != k;
          }
        }
      }
    }
  }

  /** An entry holding data in a category that was not requested survives
      the sweep with that size untouched. */
  lemma {:induction false} SweepKeepsUnrequested(names: seq<Name>, entries: map<Name, Entry>, fs: FileSystem,
                                                locked: set<Path>, types: set<Category>, order: seq<Name>,
                                                j: Name, c: Category)
    requires Synced(names, entries)
    requires j in entries && c !in types && entries[j].sizes.Get(c) > 0
    ensures var m := Sweep(names, entries, fs, locked, types, order);
      j in m.entries && m.entries[j].sizes.Get(c) == entries[j].sizes.Get(c)
    decreases |order|
  {
    if |order| > 0 {
      var k := order[0];
      var tail := order[1..];
      if k !in entries || entries[k].installed {
        SweepKeepsUnrequested(names, entries, fs, locked, types, tail, j, c);
      } else {
        var s := ClearOne(names, entries, fs, locked, k, types);
        if j == k {
          ClearKeepsUnrequested(fs, locked, entries[k], types, c);
        }
        SweepKeepsUnrequested(s.names, s.entries, s.fs, locked, types, tail, j, c);
      }
    }
  }

  /** No path is listed by two different entries, as when the discovery
      pass skips every path a known application claims. */
  predicate Separate(entries: map<Name, Entry>) {
    forall a, b :: a in entries && b in entries && a != b ==> PathsOf(entries[a]) !! PathsOf(entries[b])
  }

  /** Dropping entries or changing anything but their paths keeps the
      entries separate. */
  lemma SeparateKeepsPaths(entries: map<Name, Entry>, after: map<Name, Entry>)
    requires Separate(entries) && after.Keys <= entries.Keys
    requires forall x :: x in after ==> after[x].paths == entries[x].paths
    ensures Separate(after)
  {
  }

  /** Clearing one entry keeps every entry's paths, so the entries stay
      separate. */
  lemma ClearOneSeparate(names: seq<Name>, entries: map<Name, Entry>, fs: FileSystem, locked: set<Path>,
                         name: Name, types: set<Category>)
    requires Synced(names, entries) && name in entries && Separate(entries)
    ensures Separate(ClearOne(names, entries, fs, locked, name, types).entries)
  {
    var s := ClearOne(names, entries, fs, locked, name, types);
    SeparateKeepsPaths(entries, s.entries);
  }

  /** Clearing one entry leaves the filesystem as it was at every path of
      any entry that shares no path with it. */
  lemma ClearOneFrames(names: seq<Name>, entries: map<Name, Entry>, fs: FileSystem, locked: set<Path>,
                       name: Name, types: set<Category>, j: Name)
    requires Synced(names, entries) && name in entries
    requires j in entries && PathsOf(entries[j]) !! PathsOf(entries[name])
    ensures AgreeAt(fs, ClearOne(names, entries, fs, locked, name, types).fs, PathsOf(entries[j]))
  {
    var cl := ClearEntry(fs, locked, entries[name], types);
    ClearEntryFrame(fs, locked, entries[name], types);
    forall q | q in PathsOf(entries[j]) ensures (q in fs <==> q in cl.fs) && (q in fs ==> fs[q] == cl.fs[q]) {
      assert q !in PathsOf(entries[name]);
    }
  }

  /** The paths the sweep may delete: the targeted paths of every visited
      uninstalled entry, as the entries stood before the sweep. */
  function SweepTargets(entries: map<Name, Entry>, types: set<Category>, order: seq<Name>): set<Path>
    decreases |order|
  {
    if |order| == 0 then {}
    else
      (if order[0] in entries && !entries[order[0]].installed then Targeted(entries[order[0]], types) else {})
      + SweepTargets(entries, types, order[1..])
  }

  /** Entries that were cleared or removed target no more paths than
      before. */
  lemma {:induction false} TargetsNarrow(before: map<Name, Entry>, after: map<Name, Entry>, types: set<Category>,
                                         order: seq<Name>)
    requires forall x :: x in after ==> && x in before && after[x].installed == before[x].installed
                                        && Targeted(after[x], types) <= Targeted(before[x], types)
    ensures SweepTargets(after, types, order) <= SweepTargets(before, types, order)
    decreases |order|
  {
    if |order| > 0 {
      TargetsNarrow(before, after, types, order[1..]);
    }
  }

  /** Clearing one entry leaves the sweep no more paths to delete. */
  lemma ClearOneNarrows(names: seq<Name>, entries: map<Name, Entry>, fs: FileSystem, locked: set<Path>,
                        name: Name, types: set<Category>, order: seq<Name>)
    requires Synced(names, entries) && name in entries
    ensures SweepTargets(ClearOne(names, entries, fs, locked, name, types).entries, types, order)
            <= SweepTargets(entries, types, order)
  {
    var s := ClearOne(names, entries, fs, locked, name, types);
    if name in s.entries {
      ClearedNarrows(entries[name], s.entries[name], types);
    }
    TargetsNarrow(entries, s.entries, types, order);
  }

  /** When no path is listed by two entries, the paths the sweep may
      delete miss every path of every installed entry. */
  lemma {:induction false} TargetsMissInstalled(entries: map<Name, Entry>, types: set<Category>, order: seq<Name>,
                                                k: Name)
    requires Separate(entries) && k in entries && entries[k].installed
    ensures PathsOf(entries[k]) !! SweepTargets(entries, types, order)
    decreases |order|
  {
    if |order| > 0 {
      TargetsMissInstalled(entries, types, order[1..], k);
      var j := order[0];
      if j in entries && !entries[j].installed {
        TargetedListed(entries[j], types);
      }
    }
  }

  /** What clearing the entry under `k` on `fs` would reclaim, when `k`
      names an uninstalled entry; nothing otherwise. */
  function Gain(entries: map<Name, Entry>, fs: FileSystem, locked: set<Path>, types: set<Category>, k: Name): nat {
    if k in entries && !entries[k].installed then ClearEntry(fs, locked, entries[k], types).deleted else 0
  }

  /** The bytes the sweep would reclaim if every visited uninstalled entry
      were cleared on the filesystem as it was before the sweep. */
  function Reclaimed(entries: map<Name, Entry>, fs: FileSystem, locked: set<Path>, types: set<Category>,
                     order: seq<Name>): nat
    decreases |order|
  {
    if |order| == 0 then 0
    else Gain(entries, fs, locked, types, order[0]) + Reclaimed(entries, fs, locked, types, order[1..])
  }

  /** Nothing is reclaimed exactly when no visited uninstalled entry's
      clearing deletes anything. */
  lemma {:induction false} ReclaimedZero(entries: map<Name, Entry>, fs: FileSystem, locked: set<Path>,
                                        types: set<Category>, order: seq<Name>)
    ensures Reclaimed(entries, fs, locked, types, order) == 0 <==>
      forall i :: 0 <= i < |order| && order[i] in entries && !entries[order[i]].installed ==>
        ClearEntry(fs, locked, entries[order[i]], types).deleted == 0
    decreases |order|
  {
    if |order| > 0 {
      ReclaimedZero(entries, fs, locked, types, order[1..]);
      forall i | 1 <= i < |order| ensures order[i] == order[1..][i - 1] {}
    }
  }

  /** Reclaimed depends only on what each visited key would gain. */
  lemma {:induction false} ReclaimedFrame(e1: map<Name, Entry>, fs1: FileSystem, e2: map<Name, Entry>, fs2: FileSystem,
                                         locked: set<Path>, types: set<Category>, order: seq<Name>)
    requires forall i :: 0 <= i < |order| ==> Gain(e1, fs1, locked, types, order[i]) == Gain(e2, fs2, locked, types, order[i])
    ensures Reclaimed(e1, fs1, locked, types, order) == Reclaimed(e2, fs2, locked, types, order)
    decreases |order|
  {
    if |order| > 0 {
      var tail := order[1..];
      assert forall i :: 0 <= i < |tail| ==> tail[i] == order[i + 1];
      ReclaimedFrame(e1, fs1, e2, fs2, locked, types, tail);
    }
  }

  /** Clearing one entry changes nothing the later visits would reclaim. */
  lemma ClearOneReclaimed(names: seq<Name>, entries: map<Name, Entry>, fs: FileSystem, locked: set<Path>,
                          name: Name, types: set<Category>, later: seq<Name>)
    requires Synced(names, entries) && name in entries && Separate(entries) && name !in later
    ensures var s := ClearOne(names, entries, fs, locked, name, types);
      Reclaimed(s.entries, s.fs, locked, types, later) == Reclaimed(entries, fs, locked, types, later)
  {
    var s := ClearOne(names, entries, fs, locked, name, types);
    forall i | 0 <= i < |later|
      ensures Gain(s.entries, s.fs, locked, types, later[i]) == Gain(entries, fs, locked, types, later[i])
    {
      ClearOneGain(names, entries, fs, locked, name, types, later[i]);
    }
    ReclaimedFrame(s.entries, s.fs, entries, fs, locked, types, later);
  }

  /** Clearing one entry leaves what any other key would gain unchanged. */
  lemma ClearOneGain(names: seq<Name>, entries: map<Name, Entry>, fs: FileSystem, locked: set<Path>,
                     name: Name, types: set<Category>, x: Name)
    requires Synced(names, entries) && name in entries && Separate(entries) && x != name
    ensures var s := ClearOne(names, entries, fs, locked, name, types);
      Gain(s.entries, s.fs, locked, types, x) == Gain(entries, fs, locked, types, x)
  {
    var s := ClearOne(names, entries, fs, locked, name, types);
    if x in entries {
      ClearOneFrames(names, entries, fs, locked, name, types, x);
      ClearEntryLocal(fs, s.fs, locked, entries[x], types);
    }
  }

  /** With separate entries, the sweep deletes exactly what clearing each
      visited uninstalled entry on the filesystem before the sweep would. */
  lemma {:induction false} SweepDeleted(names: seq<Name>, entries: map<Name, Entry>, fs: FileSystem,
                                       locked: set<Path>, types: set<Category>, order: seq<Name>)
    requires Synced(names, entries) && Separate(entries) && Distinct(order)
    ensures Sweep(names, entries, fs, locked, types, order).deleted == Reclaimed(entries, fs, locked, types, order)
    decreases |order|
  {
    if |order| > 0 {
      var k := order[0];
      var tail := order[1..];
      assert Distinct(tail) && k !in tail;
      if k !in entries || entries[k].installed {
        SweepDeleted(names, entries, fs, locked, types, tail);
      } else {
        var s := ClearOne(names, entries, fs, locked, k, types);
        ClearOneSeparate(names, entries, fs, locked, k, types);
        SweepDeleted(s.names, s.entries, s.fs, locked, types, tail);
        ClearOneReclaimed(names, entries, fs, locked, k, types, tail);
      }
    }
  }

  /** With separate entries, a visited uninstalled entry survives the sweep
      exactly when clearing it on the filesystem before the sweep leaves it
      existing, and then it is that cleared entry. */
  lemma {:induction false} SweepClearsOnce(names: seq<Name>, entries: map<Name, Entry>, fs: FileSystem,
                                          locked: set<Path>, types: set<Category>, order: seq<Name>, j: Name)
    requires Synced(names, entries) && Separate(entries) && Distinct(order)
    requires j in order && j in entries && !entries[j].installed
    ensures var m := Sweep(names, entries, fs, locked, types, order);
      var cl := ClearEntry(fs, locked, entries[j], types);
      && (j in m.entries <==> cl.entry.Exists())
      && (j in m.entries ==> m.entries[j] == cl.entry)
    decreases |order|
  {
    var k := order[0];
    var tail := order[1..];
    assert Distinct(tail) && k !in tail;
    if k !in entries || entries[k].installed {
      assert j in tail;
      SweepClearsOnce(names, entries, fs, locked, types, tail, j);
    } else {
      var s := ClearOne(names, entries, fs, locked, k, types);
      if j == k {
        if k in s.entries {
          SweepSpares(s.names, s.entries, s.fs, locked, types, tail, k);
        }
      } else {
        assert j in tail;
        ClearOneSeparate(names, entries, fs, locked, k, types);
        ClearOneFrames(names, entries, fs, locked, k, types, j);
        SweepClearsOnce(s.names, s.entries, s.fs, locked, types, tail, j);
        ClearEntryLocal(fs, s.fs, locked, entries[j], types);
      }
    }
  }

  /** deleteUnusedDataImpl, corrected: installed entries are never touched,
      every other entry is cleared with the same categories and removed if
      it no longer exists; survivors keep their order and the totals stay in
      agreement with the entries. On disk only the targeted paths of the
      uninstalled entries can go. */
  function DeleteUnusedData(reg: Registry, fs: FileSystem, locked: set<Path>, types: set<Category>,
                            order: seq<Name>): (o: Outcome)
    requires Valid(reg)
    requires IsEnumeration(order, reg.entries.Keys)
    ensures Valid(o.reg)
    ensures Consistent(reg) ==> Consistent(o.reg)
    ensures o.reg.entries.Keys <= reg.entries.Keys
    ensures o.reg.names == Keep(reg.names, o.reg.entries.Keys)
    ensures forall k :: k in reg.entries && reg.entries[k].installed ==>
              k in o.reg.entries && o.reg.entries[k] == reg.entries[k]
    ensures forall k :: k in o.reg.entries && !reg.entries[k].installed ==>
              o.reg.entries[k].Exists() && ClearedFrom(reg.entries[k], o.reg.entries[k], types)
    ensures forall k :: k in reg.entries && HoldsUnrequested(reg.entries[k], types) ==> k in o.reg.entries
    ensures Separate(reg.entries) ==> o.deleted == Reclaimed(reg.entries, fs, locked, types, order)
    ensures Separate(reg.entries) ==>
              forall k :: k in reg.entries && !reg.entries[k].installed ==>
                && (k in o.reg.entries <==> ClearEntry(fs, locked, reg.entries[k], types).entry.Exists())
                && (k in o.reg.entries ==> o.reg.entries[k] == ClearEntry(fs, locked, reg.entries[k], types).entry)
    ensures o.fs.Keys <= fs.Keys
    ensures forall q :: q in o.fs ==> o.fs[q] == fs[q]
    ensures forall q :: q in fs && q !in SweepTargets(reg.entries, types, order) ==> q in o.fs
    ensures Separate(reg.entries) ==>
              forall k :: k in reg.entries && reg.entries[k].installed ==> PathsOf(reg.entries[k]) * fs.Keys <= o.fs.Keys
  {
    var m := Sweep(reg.names, reg.entries, fs, locked, types, order);
    SweepKeepsOrder(reg.names, reg.entries, fs, locked, types, order);
    SweepSettles(reg, fs, locked, types, order);
    SweepUnchanged(reg.names, reg.entries, fs, locked, types, order);
    Settle(reg, m, false)
  }

  /** A sweep that neither deleted bytes nor removed a row left the map as
      it was. */
  lemma SweepUnchanged(names: seq<Name>, entries: map<Name, Entry>, fs: FileSystem,
                       locked: set<Path>, types: set<Category>, order: seq<Name>)
    requires Synced(names, entries)
    ensures var m := Sweep(names, entries, fs, locked, types, order);
      m.deleted == 0 && !m.pruned ==> m.entries == entries
  {
    var m := Sweep(names, entries, fs, locked, types, order);
    SweepPrunes(names, entries, fs, locked, types, order);
    if m.deleted == 0 && !m.pruned {
      forall j | j in m.entries ensures m.entries[j] == entries[j] {
        SweepIdle(names, entries, fs, locked, types, order, j);
      }
    }
  }

  /** What the sweep does to one visited uninstalled entry: a survivor
      still exists and has been cleared with the requested categories; data
      in a category that was not requested keeps the entry alive; and when
      no path is listed by two entries, the entry survives exactly when
      clearing it on the filesystem before the sweep leaves it existing,
      and is then that cleared entry. */
  lemma SweepClears(names: seq<Name>, entries: map<Name, Entry>, fs: FileSystem,
                    locked: set<Path>, types: set<Category>, order: seq<Name>, j: Name)
    requires Synced(names, entries)
    requires Distinct(order)
    requires j in order && j in entries && !entries[j].installed
    ensures var m := Sweep(names, entries, fs, locked, types, order);
      var cl := ClearEntry(fs, locked, entries[j], types);
      && (j in m.entries ==> m.entries[j].Exists() && ClearedFrom(entries[j], m.entries[j], types))
      && (HoldsUnrequested(entries[j], types) ==> j in m.entries)
      && (Separate(entries) ==> (j in m.entries <==> cl.entry.Exists()))
      && (Separate(entries) && j in m.entries ==> m.entries[j] == cl.entry)
  {
    SweepClearedSurvivor(names, entries, fs, locked, types, order, j);
    if HoldsUnrequested(entries[j], types) {
      var c :| c !in types && entries[j].sizes.Get(c) > 0;
      SweepKeepsUnrequested(names, entries, fs, locked, types, order, j, c);
    }
    if Separate(entries) {
      SweepClearsOnce(names, entries, fs, locked, types, order, j);
    }
  }

  /** What the sweep over every key does: installed entries are kept as
      they were; uninstalled survivors still exist and have been cleared;
      an entry holding data in a category that was not requested survives;
      and when no path is listed by two entries, an uninstalled entry
      survives exactly when clearing it on the filesystem before the sweep
      leaves it existing, as that cleared entry, and the bytes deleted are
      what those clearings reclaim, and no installed entry loses a file. */
  lemma SweepSettles(reg: Registry, fs: FileSystem, locked: set<Path>, types: set<Category>, order: seq<Name>)
    requires Valid(reg)
    requires IsEnumeration(order, reg.entries.Keys)
    ensures var m := Sweep(reg.names, reg.entries, fs, locked, types, order);
      && (forall k :: k in reg.entries && reg.entries[k].installed ==>
            k in m.entries && m.entries[k] == reg.entries[k])
      && (forall k :: k in m.entries && !reg.entries[k].installed ==>
            m.entries[k].Exists() && ClearedFrom(reg.entries[k], m.entries[k], types))
      && (forall k :: k in reg.entries && HoldsUnrequested(reg.entries[k], types) ==> k in m.entries)
      && (Separate(reg.entries) ==> m.deleted == Reclaimed(reg.entries, fs, locked, types, order))
      && (Separate(reg.entries) ==>
            forall k :: k in reg.entries && !reg.entries[k].installed ==>
              && (k in m.entries <==> ClearEntry(fs, locked, reg.entries[k], types).entry.Exists())
              && (k in m.entries ==> m.entries[k] == ClearEntry(fs, locked, reg.entries[k], types).entry))
      && (Separate(reg.entries) ==>
            forall k :: k in reg.entries && reg.entries[k].installed ==> PathsOf(reg.entries[k]) * fs.Keys <= m.fs.Keys)
  {
    forall k | k in reg.entries
      ensures var m := Sweep(reg.names, reg.entries, fs, locked, types, order);
        && (reg.entries[k].installed ==> k in m.entries && m.entries[k] == reg.entries[k])
        && (reg.entries[k].installed && Separate(reg.entries) ==> PathsOf(reg.entries[k]) * fs.Keys <= m.fs.Keys)
        && (!reg.entries[k].installed ==>
              && (k in m.entries ==> m.entries[k].Exists() && ClearedFrom(reg.entries[k], m.entries[k], types))
              && (HoldsUnrequested(reg.entries[k], types) ==> k in m.entries)
              && (Separate(reg.entries) ==> (k in m.entries <==> ClearEntry(fs, locked, reg.entries[k], types).entry.Exists()))
              && (Separate(reg.entries) && k in m.entries ==> m.entries[k] == ClearEntry(fs, locked, reg.entries[k], types).entry))
    {
      if reg.entries[k].installed {
        SweepSpares(reg.names, reg.entries, fs, locked, types, order, k);
        if Separate(reg.entries) {
          TargetsMissInstalled(reg.entries, types, order, k);
        }
      } else {
        assert k in Elems(order);
        SweepClears(reg.names, reg.entries, fs, locked, types, order, k);
      }
    }
    if Separate(reg.entries) {
      SweepDeleted(reg.names, reg.entries, fs, locked, types, order);
    }
  }

  /** deleteUnusedDataImpl as written: totals recomputed (swapped) only
      when bytes were deleted. */
  function DeleteUnusedDataAsWritten(reg: Registry, fs: FileSystem, locked: set<Path>, types: set<Category>,
                                     order: seq<Name>): (o: Outcome)
    requires Valid(reg)
    requires IsEnumeration(order, reg.entries.Keys)
    ensures Valid(o.reg)
    ensures o.deleted > 0 ==> AgreeAsWritten(o.reg.totals, o.reg.entries)
    ensures o.deleted == 0 ==> o.reg.totals == reg.totals
    ensures o.reg.names == Keep(reg.names, o.reg.entries.Keys)
    ensures forall k :: k in reg.entries && reg.entries[k].installed ==>
              k in o.reg.entries && o.reg.entries[k] == reg.entries[k]
    ensures forall k :: k in o.reg.entries && !reg.entries[k].installed ==>
              o.reg.entries[k].Exists() && ClearedFrom(reg.entries[k], o.reg.entries[k], types)
    ensures o.fs.Keys <= fs.Keys
    ensures forall q :: q in o.fs ==> o.fs[q] == fs[q]
    ensures forall q :: q in fs && q !in SweepTargets(reg.entries, types, order) ==> q in o.fs
    ensures Separate(reg.entries) ==>
              forall k :: k in reg.entries && reg.entries[k].installed ==> PathsOf(reg.entries[k]) * fs.Keys <= o.fs.Keys
  {
    var m := Sweep(reg.names, reg.entries, fs, locked, types, order);
    SweepKeepsOrder(reg.names, reg.entries, fs, locked, types, order);
    SweepSettles(reg, fs, locked, types, order);
    Settle(reg, m, true)
  }

  /** Clearing an entry that holds no data deletes nothing and leaves an
      entry that does not exist. */
  lemma ClearEmptyEntry(fs: FileSystem, locked: set<Path>, e: Entry, types: set<Category>)
    requires e.sizes == PerCategory(0, 0, 0)
    ensures ClearEntry(fs, locked, e, types).deleted == 0
    ensures !ClearEntry(fs, locked, e, types).entry.Exists()
  {
    assert ClearCategory(fs, locked, e, Config, types) == Cleared(fs, e, 0, [], []);
    assert ClearCategory(fs, locked, e, Cache, types) == Cleared(fs, e, 0, [], []);
    assert ClearCategory(fs, locked, e, LocalData, types) == Cleared(fs, e, 0, [], []);
  }

  /** A registry with one row, uninstalled and holding no data, whose
      totals count that row as one unused app: what a rescan produces from
      a single empty `harbour-*` directory. */
  function EmptyRow(name: Name, e: Entry): Registry {
    Registry([name], map[name := e], Totals(1, 0, 0, 0, 0, 0, 0))
  }

  lemma EmptyRowConsistent(name: Name, e: Entry)
    requires !e.installed && e.sizes == PerCategory(0, 0, 0)
    ensures Consistent(EmptyRow(name, e))
  {
    var reg := EmptyRow(name, e);
    assert Elems(reg.names) == {name};
    forall m ensures reg.totals.Get(m) == SumOver(reg.entries, reg.entries.Keys, m) {
      SumOverPick(reg.entries, reg.entries.Keys, m, name);
      assert reg.entries.Keys - {name} == {};
    }
  }

  /** As written, deleting an empty row removes it but deletes no bytes, so
      the totals are not recomputed and still count one unused app while
      the registry holds none. */
  lemma StaleUnusedCount(name: Name, e: Entry, fs: FileSystem, locked: set<Path>, types: set<Category>)
    requires !e.installed && e.sizes == PerCategory(0, 0, 0)
    ensures Consistent(EmptyRow(name, e))
    ensures var o := DeleteDataAsWritten(EmptyRow(name, e), fs, locked, name, types);
      && o.reg.names == [] && o.reg.entries == map[]
      && o.reg.totals.unusedAppsCount == 1
      && !Consistent(o.reg)
  {
    EmptyRowConsistent(name, e);
    var reg := EmptyRow(name, e);
    ClearEmptyEntry(fs, locked, e, types);
    var m := ClearOne(reg.names, reg.entries, fs, locked, name, types);
    assert m.deleted == 0 && m.pruned;
    var o := DeleteDataAsWritten(reg, fs, locked, name, types);
    assert o.reg.entries == map[];
    assert SumOver(o.reg.entries, o.reg.entries.Keys, UnusedCount) == 0;
  }

  /** The same stale count after deleteUnusedDataImpl as written. */
  lemma StaleUnusedCountSweep(name: Name, e: Entry, fs: FileSystem, locked: set<Path>, types: set<Category>)
    requires !e.installed && e.sizes == PerCategory(0, 0, 0)
    ensures Consistent(EmptyRow(name, e))
    ensures var o := DeleteUnusedDataAsWritten(EmptyRow(name, e), fs, locked, types, [name]);
      && o.reg.names == [] && o.reg.entries == map[]
      && o.reg.totals.unusedAppsCount == 1
      && !Consistent(o.reg)
  {
    EmptyRowConsistent(name, e);
    var reg := EmptyRow(name, e);
    SweepEmptyRow(name, e, fs, locked, types);
    var o := DeleteUnusedDataAsWritten(reg, fs, locked, types, [name]);
    assert o.reg.entries == map[];
    assert SumOver(o.reg.entries, o.reg.entries.Keys, UnusedCount) == 0;
  }

  /** Sweeping the single empty row removes it and deletes nothing. */
  lemma SweepEmptyRow(name: Name, e: Entry, fs: FileSystem, locked: set<Path>, types: set<Category>)
    requires !e.installed && e.sizes == PerCategory(0, 0, 0)
    ensures Valid(EmptyRow(name, e))
    ensures var reg := EmptyRow(name, e);
      var m := Sweep(reg.names, reg.entries, fs, locked, types, [name]);
      m.deleted == 0 && m.names == [] && m.entries == map[]
  {
    var reg := EmptyRow(name, e);
    assert Elems(reg.names) == {name};
    ClearEmptyEntry(fs, locked, e, types);
    var s := ClearOne(reg.names, reg.entries, fs, locked, name, types);
    assert s.deleted == 0 && s.pruned;
    assert [name][1..] == [];
    var rest := Sweep(s.names, s.entries, s.fs, locked, types, []);
    assert rest.deleted == 0;
  }
}

=== FILE: rescan.dfy ===
/** `MModel::resetImpl` as a whole: the registry is rebuilt from nothing by
    the known-apps pass, the directory search under the config, cache and
    local-data locations (in that order), and the install-status pass, and
    its totals are computed afresh.

    Everything the rescan reads besides the filesystem is an input: the
    known-apps table, the three search roots, the child names each root
    lists, the exclusion pattern, the applications directories and the
    contents of the `.desktop` files. */
module Rescan {
  import opened Common
  import opened Storage
  import opened Entries
  import opened Totals
  import opened Registry
  import opened Discovery
  import opened Install

  datatype Environment = Environment(
    known: seq<KnownApp>,
    roots: PerCategory<Path>,
    listings: PerCategory<seq<Name>>,
    exclude: Exclusion,
    desktopDirs: seq<Path>,
    desktopFiles: DesktopFiles)

  /** A directory lists each child name once. */
  predicate WellListed(env: Environment) {
    Distinct(env.listings.config) && Distinct(env.listings.cache) && Distinct(env.listings.localData)
  }

  /** The children of a category's root that are folded in, in listing order. */
  function Found(fs: FileSystem, env: Environment, c: Category): seq<Name> {
    AcceptedIn(fs, env.exclude, env.roots.Get(c), env.listings.Get(c))
  }

  /** The directory a found name has under a category's root. */
  function FoundPath(env: Environment, c: Category, k: Name): Path {
    ChildPath(env.roots.Get(c), k)
  }

  /** The search loop over one category's root. */
  function DiscoverStage(fs: FileSystem, env: Environment, c: Category,
                         names: seq<Name>, entries: map<Name, Entry>): (r: (seq<Name>, map<Name, Entry>))
    requires Synced(names, entries)
    ensures Synced(r.0, r.1)
  {
    DiscoverIn(fs, env.exclude, c, env.roots.Get(c), env.listings.Get(c), names, entries)
  }

  /** The search over the three roots: config, then cache, then local data. */
  function Discover(fs: FileSystem, env: Environment, names: seq<Name>, entries: map<Name, Entry>)
    : (r: (seq<Name>, map<Name, Entry>))
    requires Synced(names, entries)
    ensures Synced(r.0, r.1)
  {
    var a := DiscoverStage(fs, env, Config, names, entries);
    var b := DiscoverStage(fs, env, Cache, a.0, a.1);
    DiscoverStage(fs, env, LocalData, b.0, b.1)
  }

  /** resetImpl: whatever the registry held before is discarded; the
      rebuilt registry lists each row once and its totals agree with its
      entries. */
  function Reset(fs: FileSystem, env: Environment): (reg: Registry)
    requires DistinctNames(env.known)
    ensures Consistent(reg)
  {
    var k := KnownPhase(fs, env.known);
    var d := Discover(fs, env, k.0, k.1);
    var entries := ResolveAll(fs, env.desktopFiles, env.desktopDirs, d.1);
    Registry(d.0, entries, CalculateTotal(entries, d.0))
  }

  /** The known applications that got a row, in table order. */
  function KnownRows(fs: FileSystem, env: Environment): seq<Name> {
    ExistingNames(Build(fs, env.known))
  }

  /** The rows come in this order: the known applications that have data,
      in table order, then every found directory name that is not yet a
      row, at its first appearance, config names before cache names before
      local-data names. */
  lemma ResetNames(fs: FileSystem, env: Environment)
    requires DistinctNames(env.known)
    ensures Reset(fs, env).names
            == KnownRows(fs, env)
               + NewNames(Found(fs, env, Config) + Found(fs, env, Cache) + Found(fs, env, LocalData),
                          Elems(KnownRows(fs, env)))
  {
    var k := KnownPhase(fs, env.known);
    KnownPhaseNames(fs, env.known);
    var a := DiscoverStage(fs, env, Config, k.0, k.1);
    var b := DiscoverStage(fs, env, Cache, a.0, a.1);
    var d := DiscoverStage(fs, env, LocalData, b.0, b.1);
    assert Discover(fs, env, k.0, k.1) == d;
    StageAppends(fs, env, Config, k.0, k.1);
    StageAppends(fs, env, Cache, a.0, a.1);
    StageAppends(fs, env, LocalData, b.0, b.1);
    ChainNames(k.0, Found(fs, env, Config), Found(fs, env, Cache), Found(fs, env, LocalData),
               k.1.Keys, a.0, a.1.Keys, b.0, b.1.Keys, d.0);
  }

  /** One stage appends the new names of what it found and adds them as keys. */
  lemma StageAppends(fs: FileSystem, env: Environment, c: Category, names: seq<Name>, entries: map<Name, Entry>)
    requires Synced(names, entries)
    ensures var r := DiscoverStage(fs, env, c, names, entries);
      && r.0 == names + NewNames(Found(fs, env, c), entries.Keys)
      && r.1.Keys == entries.Keys + Elems(Found(fs, env, c))
  {
    DiscoverInAppends(fs, env.exclude, c, env.roots.Get(c), env.listings.Get(c), names, entries);
    DiscoverInKeys(fs, env.exclude, c, env.roots.Get(c), env.listings.Get(c), names, entries);
  }

  /** Three stages of appending new names are one stage over the
      concatenation of what they found. */
  lemma ChainNames(n0: seq<Name>, f1: seq<Name>, f2: seq<Name>, f3: seq<Name>, k0: set<Name>,
                   n1: seq<Name>, k1: set<Name>, n2: seq<Name>, k2: set<Name>, n3: seq<Name>)
    requires n1 == n0 + NewNames(f1, k0) && k1 == k0 + Elems(f1)
    requires n2 == n1 + NewNames(f2, k1) && k2 == k1 + Elems(f2)
    requires n3 == n2 + NewNames(f3, k2)
    ensures n3 == n0 + NewNames(f1 + f2 + f3, k0)
  {
    ChainTwo(n0, f1, f2, k0, n1, k1, n2);
    ChainTwo(n0, f1 + f2, f3, k0, n2, k2, n3);
  }

  /** Two stages of appending new names are one stage over the
      concatenation of what they found. */
  lemma ChainTwo(n0: seq<Name>, f1: seq<Name>, f2: seq<Name>, k0: set<Name>,
                 n1: seq<Name>, k1: set<Name>, n2: seq<Name>)
    requires n1 == n0 + NewNames(f1, k0) && k1 == k0 + Elems(f1)
    requires n2 == n1 + NewNames(f2, k1)
    ensures n2 == n0 + NewNames(f1 + f2, k0)
    ensures k1 + Elems(f2) == k0 + Elems(f1 + f2)
  {
    NewNamesAppend(f1, f2, k0);
    ElemsConcat(f1, f2);
    var u := NewNames(f1, k0);
    var v := NewNames(f2, k1);
    assert n0 + u + v == n0 + (u + v);
  }

  /** A name has a row exactly when it is a known application with data or
      a directory of that name was found under one of the three roots. */
  lemma ResetRows(fs: FileSystem, env: Environment)
    requires DistinctNames(env.known)
    ensures Reset(fs, env).entries.Keys
            == Elems(KnownRows(fs, env)) + Elems(Found(fs, env, Config)) + Elems(Found(fs, env, Cache))
               + Elems(Found(fs, env, LocalData))
  {
    var k := KnownPhase(fs, env.known);
    KnownPhaseNames(fs, env.known);
    var a := DiscoverStage(fs, env, Config, k.0, k.1);
    var b := DiscoverStage(fs, env, Cache, a.0, a.1);
    var d := DiscoverStage(fs, env, LocalData, b.0, b.1);
    assert Discover(fs, env, k.0, k.1) == d;
    StageAppends(fs, env, Config, k.0, k.1);
    StageAppends(fs, env, Cache, a.0, a.1);
    StageAppends(fs, env, LocalData, b.0, b.1);
    assert Reset(fs, env).entries.Keys == d.1.Keys;
  }

  /** A found name's entry after one stage: category `c` gains the found
      directory and takes its size. */
  function Stage(fs: FileSystem, env: Environment, c: Category, k: Name, e: Entry): Entry {
    if k in Found(fs, env, c) then WithDir(e, c, FoundPath(env, c, k), GetSize(fs, FoundPath(env, c, k))) else e
  }

  /** What one stage does to every entry. */
  lemma StageEntries(fs: FileSystem, env: Environment, c: Category, names: seq<Name>, entries: map<Name, Entry>)
    requires Synced(names, entries) && WellListed(env)
    ensures var r := DiscoverStage(fs, env, c, names, entries);
      forall k :: Lookup(r.1, k) == Stage(fs, env, c, k, Lookup(entries, k))
  {
    assert Distinct(env.listings.Get(c));
    DiscoverInEntries(fs, env.exclude, c, env.roots.Get(c), env.listings.Get(c), names, entries);
  }

  /** The three stages in turn, as one function of an entry. */
  function Staged(fs: FileSystem, env: Environment, k: Name, e: Entry): Entry {
    Stage(fs, env, LocalData, k, Stage(fs, env, Cache, k, Stage(fs, env, Config, k, e)))
  }

  /** Each stage only touches its own category, so after all three every
      category holds the paths it had plus the directory found under its
      root, if any, and the size of that directory, or its old size when
      none was found; install status, title and icon are left alone. */
  lemma StagedPerCategory(fs: FileSystem, env: Environment, k: Name, e: Entry)
    ensures var r := Staged(fs, env, k, e);
      && (forall c :: r.paths.Get(c)
                      == e.paths.Get(c) + (if k in Found(fs, env, c) then [FoundPath(env, c, k)] else []))
      && (forall c :: r.sizes.Get(c)
                      == if k in Found(fs, env, c) then GetSize(fs, FoundPath(env, c, k)) else e.sizes.Get(c))
      && r.installed == e.installed && r.title == e.title && r.icon == e.icon
  {
    forall c
      ensures Staged(fs, env, k, e).paths.Get(c)
              == e.paths.Get(c) + (if k in Found(fs, env, c) then [FoundPath(env, c, k)] else [])
      ensures Staged(fs, env, k, e).sizes.Get(c)
              == if k in Found(fs, env, c) then GetSize(fs, FoundPath(env, c, k)) else e.sizes.Get(c)
    {
      StagedCategory(fs, env, k, e, c);
    }
  }

  /** StagedPerCategory for one category. */
  lemma StagedCategory(fs: FileSystem, env: Environment, k: Name, e: Entry, c: Category)
    ensures var r := Staged(fs, env, k, e);
      && r.paths.Get(c) == e.paths.Get(c) + (if k in Found(fs, env, c) then [FoundPath(env, c, k)] else [])
      && r.sizes.Get(c) == if k in Found(fs, env, c) then GetSize(fs, FoundPath(env, c, k)) else e.sizes.Get(c)
  {
    var a := Stage(fs, env, Config, k, e);
    var b := Stage(fs, env, Cache, k, a);
    var r := Stage(fs, env, LocalData, k, b);
    assert e.paths.Get(c) + [] == e.paths.Get(c);
    match c
    case Config =>
      assert r.paths.Get(c) == a.paths.Get(c) && r.sizes.Get(c) == a.sizes.Get(c);
    case Cache =>
      assert r.paths.Get(c) == b.paths.Get(c) && r.sizes.Get(c) == b.sizes.Get(c);
      assert a.paths.Get(c) == e.paths.Get(c) && a.sizes.Get(c) == e.sizes.Get(c);
    case LocalData =>
      assert b.paths.Get(c) == e.paths.Get(c) && b.sizes.Get(c) == e.sizes.Get(c);
  }

  /** What the whole search does to every entry. */
  lemma DiscoverEntries(fs: FileSystem, env: Environment, names: seq<Name>, entries: map<Name, Entry>)
    requires Synced(names, entries) && WellListed(env)
    ensures var r := Discover(fs, env, names, entries);
      forall k :: Lookup(r.1, k) == Staged(fs, env, k, Lookup(entries, k))
  {
    var a := DiscoverStage(fs, env, Config, names, entries);
    var b := DiscoverStage(fs, env, Cache, a.0, a.1);
    StageEntries(fs, env, Config, names, entries);
    StageEntries(fs, env, Cache, a.0, a.1);
    StageEntries(fs, env, LocalData, b.0, b.1);
  }

  /** The entry the known-apps pass left under a name, or a default one. */
  function KnownBase(fs: FileSystem, env: Environment, k: Name): Entry
    requires DistinctNames(env.known)
  {
    Lookup(KnownPhase(fs, env.known).1, k)
  }

  /** The paths and sizes of a row: per category, the existing known
      paths of the application (none for an unknown one) followed by the
      directory found under that category's root, if any; the size is that
      directory's size when one was found, and the known paths' size
      otherwise. */
  lemma ResetEntries(fs: FileSystem, env: Environment, k: Name)
    requires DistinctNames(env.known) && WellListed(env)
    requires k in Reset(fs, env).entries
    ensures var e := Reset(fs, env).entries[k];
      var base := KnownBase(fs, env, k);
      forall c ::
        && e.paths.Get(c) == base.paths.Get(c) + (if k in Found(fs, env, c) then [FoundPath(env, c, k)] else [])
        && e.sizes.Get(c) == if k in Found(fs, env, c) then GetSize(fs, FoundPath(env, c, k)) else base.sizes.Get(c)
  {
    var kp := KnownPhase(fs, env.known);
    var d := Discover(fs, env, kp.0, kp.1);
    DiscoverEntries(fs, env, kp.0, kp.1);
    assert Lookup(d.1, k) == d.1[k];
    var e := Reset(fs, env).entries[k];
    assert e.paths == d.1[k].paths && e.sizes == d.1[k].sizes;
    StagedPerCategory(fs, env, k, KnownBase(fs, env, k));
  }

  /** A row is installed exactly when one of the applications directories
      holds a `.desktop` file for its name; a row without one has no title
      and no icon. */
  lemma ResetInstall(fs: FileSystem, env: Environment)
    requires DistinctNames(env.known) && WellListed(env)
    ensures var reg := Reset(fs, env);
      forall k :: k in reg.entries ==>
        && (reg.entries[k].installed <==> HasDesktopFile(fs, env.desktopDirs, k))
        && (!HasDesktopFile(fs, env.desktopDirs, k) ==> reg.entries[k].title == "" && reg.entries[k].icon == "")
  {
    var kp := KnownPhase(fs, env.known);
    var d := Discover(fs, env, kp.0, kp.1);
    var reg := Reset(fs, env);
    KnownPhaseBlank(fs, env.known);
    DiscoverEntries(fs, env, kp.0, kp.1);
    forall k | k in reg.entries
      ensures reg.entries[k].installed <==> HasDesktopFile(fs, env.desktopDirs, k)
      ensures !HasDesktopFile(fs, env.desktopDirs, k) ==> reg.entries[k].title == "" && reg.entries[k].icon == ""
    {
      var base := KnownBase(fs, env, k);
      assert Blank(base);
      assert Lookup(d.1, k) == d.1[k];
      StagedPerCategory(fs, env, k, base);
      assert Blank(d.1[k]);
      assert reg.entries[k] == Resolve(fs, env.desktopFiles, env.desktopDirs, k, d.1[k]);
      ResolveInstalled(fs, env.desktopFiles, env.desktopDirs, k, d.1[k]);
    }
  }

  /** A row whose first `.desktop` file is the one in the `j`-th
      applications directory takes its title from that file, and its icon
      from the first icon template that names an existing file; when no
      template does, its icon stays empty. */
  lemma ResetReadsDesktopFile(fs: FileSystem, env: Environment, k: Name, j: nat)
    requires DistinctNames(env.known) && WellListed(env)
    requires j < |env.desktopDirs| && IsFile(fs, DesktopPath(env.desktopDirs[j], k))
    requires forall i :: 0 <= i < j ==> !IsFile(fs, DesktopPath(env.desktopDirs[i], k))
    ensures var reg := Reset(fs, env);
      var file := DesktopPath(env.desktopDirs[j], k);
      var iconName := IniValue(env.desktopFiles, file, IconKey).GetOr(k);
      k in reg.entries ==>
        && reg.entries[k].installed
        && reg.entries[k].title == IniValue(env.desktopFiles, file, NameKey).GetOr("")
        && (forall t :: 0 <= t < |IconTemplates| && IsFile(fs, IconTemplates[t].Arg(iconName))
                        && (forall u :: 0 <= u < t ==> !IsFile(fs, IconTemplates[u].Arg(iconName)))
                        ==> reg.entries[k].icon == IconTemplates[t].Arg(iconName))
        && ((forall t :: 0 <= t < |IconTemplates| ==> !IsFile(fs, IconTemplates[t].Arg(iconName)))
            ==> reg.entries[k].icon == "")
  {
    var kp := KnownPhase(fs, env.known);
    var d := Discover(fs, env, kp.0, kp.1);
    if k in d.1 {
      DiscoveredBlank(fs, env, k);
      ResolveReadsFirst(fs, env.desktopFiles, env.desktopDirs, k, d.1[k], j);
    }
  }

  /** Before the install pass every row is blank: not installed, with no
      title and no icon. */
  lemma DiscoveredBlank(fs: FileSystem, env: Environment, k: Name)
    requires DistinctNames(env.known) && WellListed(env)
    ensures var kp := KnownPhase(fs, env.known);
      var d := Discover(fs, env, kp.0, kp.1);
      k in d.1 ==> Blank(d.1[k])
  {
    var kp := KnownPhase(fs, env.known);
    var d := Discover(fs, env, kp.0, kp.1);
    KnownPhaseBlank(fs, env.known);
    DiscoverEntries(fs, env, kp.0, kp.1);
    if k in d.1 {
      var base := KnownBase(fs, env, k);
      assert Blank(base);
      assert Lookup(d.1, k) == d.1[k];
      StagedPerCategory(fs, env, k, base);
    }
  }
}

=== FILE: rowview.dfy ===
/** The list-model face of the registry (`MModel::rowCount` and
    `MModel::data`): one row per listed name, in list order, and the values
    a view reads from a row by role. The sort key puts installed
    applications before uninstalled ones and orders each group by the title
    shown. */
module RowView {
  import opened Common
  import opened Entries
  import opened Registry

  /** A model index: the invalid (root) index, or the index of a row. */
  datatype ModelIndex = Invalid | Index(row: int)

  /** The values `data` returns. An empty QVariant is `VNone`. */
  datatype Variant = VNone | VString(s: string) | VBool(b: bool) | VInt(i: int)

  /** rowCount: a flat list, so only the root has children. */
  function RowCount(reg: Registry, parent: ModelIndex): (n: nat)
    ensures parent.Index? ==> n == 0
    ensures parent.Invalid? ==> n == |reg.names|
  {
    if parent.Invalid? then |reg.names| else 0
  }

  /** The root has one row per entry. */
  lemma RowCountIsEntries(reg: Registry)
    requires Valid(reg)
    ensures RowCount(reg, Invalid) == |reg.entries|
  {
    DistinctCard(reg.names);
    assert |reg.entries.Keys| == |reg.entries|;
  }

  /** The title a row shows: the entry's title, or its name when the title
      is empty. */
  function DisplayTitle(name: Name, e: Entry): (t: string)
    ensures e.title != "" ==> t == e.title
    ensures e.title == "" ==> t == name
  {
    if e.title == "" then name else e.title
  }

  /** The sort key: `0` for an installed application, `1` for one that is
      not, followed by the title shown. */
  function SortKey(name: Name, e: Entry): (k: string)
    ensures |k| == 1 + |DisplayTitle(name, e)|
    ensures k[0] == if e.installed then '0' else '1'
    ensures k[1..] == DisplayTitle(name, e)
  {
    (if e.installed then "0" else "1") + DisplayTitle(name, e)
  }

  /** data: an invalid index and an unserved role give an empty value; a
      name without an entry reads as a default entry. */
  function Data(reg: Registry, index: ModelIndex, role: Role): (v: Variant)
    requires index.Index? ==> 0 <= index.row < |reg.names|
    ensures v.VNone? <==> index.Invalid? || role.OtherRole?
    ensures index.Index? && role == NameRole ==> v == VString(reg.names[index.row])
  {
    if index.Invalid? then VNone
    else
      var name := reg.names[index.row];
      var e := if name in reg.entries then reg.entries[name] else Fresh;
      match role
      case NameRole => VString(name)
      case TitleRole => VString(DisplayTitle(name, e))
      case IconRole => VString(e.icon)
      case InstalledRole => VBool(e.installed)
      case ConfigSizeRole => VInt(e.sizes.config)
      case CacheSizeRole => VInt(e.sizes.cache)
      case LocalDataSizeRole => VInt(e.sizes.localData)
      case SortRole => VString(SortKey(name, e))
      case OtherRole(_) => VNone
  }

  /** In a valid registry every entry is shown at exactly one row, the row
      of its name, and that row reads the entry's own fields. */
  lemma DataShowsEntry(reg: Registry, name: Name)
    requires Valid(reg) && name in reg.entries
    ensures var row := IndexOf(reg.names, name);
      var e := reg.entries[name];
      && 0 <= row < RowCount(reg, Invalid)
      && (forall r :: 0 <= r < |reg.names| && Data(reg, Index(r), NameRole) == VString(name) ==> r == row)
      && Data(reg, Index(row), TitleRole) == VString(DisplayTitle(name, e))
      && Data(reg, Index(row), IconRole) == VString(e.icon)
      && Data(reg, Index(row), InstalledRole) == VBool(e.installed)
      && (forall c :: Data(reg, Index(row), SizeRole(c)) == VInt(e.sizes.Get(c)))
      && Data(reg, Index(row), SortRole) == VString(SortKey(name, e))
  {
    var row := IndexOf(reg.names, name);
    assert name in Elems(reg.names);
    forall r | 0 <= r < |reg.names| && Data(reg, Index(r), NameRole) == VString(name) ensures r == row {
      assert reg.names[r] == reg.names[row];
    }
  }

  /** Strict lexicographic order on strings, character by character, a
      proper prefix first (the order of QString's `<`). */
  predicate Less(a: string, b: string)
    decreases |a|
  {
    |b| > 0 && (|a| == 0 || a[0] < b[0] || (a[0] == b[0] && Less(a[1..], b[1..])))
  }

  lemma {:induction false} LessIrreflexive(a: string)
    ensures !Less(a, a)
    decreases |a|
  {
    if |a| > 0 {
      LessIrreflexive(a[1..]);
    }
  }

  lemma {:induction false} LessTransitive(a: string, b: string, c: string)
    requires Less(a, b) && Less(b, c)
    ensures Less(a, c)
    decreases |a|
  {
    if |a| > 0 && a[0] == b[0] && b[0] == c[0] {
      LessTransitive(a[1..], b[1..], c[1..]);
    }
  }

  /** Any two different strings are ordered one way or the other. */
  lemma {:induction false} LessTotal(a: string, b: string)
    requires a != b
    ensures Less(a, b) || Less(b, a)
    decreases |a|
  {
    if |a| > 0 && |b| > 0 && a[0] == b[0] {
      assert a == [a[0]] + a[1..] && b == [b[0]] + b[1..];
      LessTotal(a[1..], b[1..]);
    }
  }

  /** Every installed application sorts before every uninstalled one. */
  lemma InstalledSortFirst(n1: Name, e1: Entry, n2: Name, e2: Entry)
    requires e1.installed && !e2.installed
    ensures Less(SortKey(n1, e1), SortKey(n2, e2))
  {
    var k1 := SortKey(n1, e1);
    var k2 := SortKey(n2, e2);
    assert k1[0] == '0' && k2[0] == '1';
  }

  /** Between two applications of the same install status, the sort key
      follows the title shown. */
  lemma SameStatusSortByTitle(n1: Name, e1: Entry, n2: Name, e2: Entry)
    requires e1.installed == e2.installed
    ensures Less(SortKey(n1, e1), SortKey(n2, e2)) <==> Less(DisplayTitle(n1, e1), DisplayTitle(n2, e2))
  {
    var k1 := SortKey(n1, e1);
    var k2 := SortKey(n2, e2);
    assert k1[0] == k2[0];
  }
}

=== FILE: storage.dfy ===
/** The filesystem as the registry sees it, size accounting (`getSize`) and
    batch deletion (`MModel::removePaths`).

    The filesystem is a finite map from path to what `QFileInfo` reports
    there. The recursive `QDirIterator` walk of a directory is abstracted
    into the directory's `treeSize`: the byte total of every file beneath it,
    hidden files included. Whether the platform lets a directory or file be
    removed is an input: `locked` holds the paths whose removal fails. */
module Storage {
  import opened Common

  type Path = string

  datatype Node =
    | Dir(treeSize: nat)
    | File(size: nat)
    | Special            // a socket, device or anything neither file nor directory

  type FileSystem = map<Path, Node>

  /** `QFileInfo(p).exists()`: the empty path never names anything. */
  predicate PathExists(fs: FileSystem, p: Path) {
    p != "" && p in fs
  }

  predicate IsDir(fs: FileSystem, p: Path) {
    PathExists(fs, p) && fs[p].Dir?
  }

  predicate IsFile(fs: FileSystem, p: Path) {
    PathExists(fs, p) && fs[p].File?
  }

  /** getSize: a directory measures the files beneath it, a regular file its
      length, and anything else (a missing path included) measures 0. */
  function GetSize(fs: FileSystem, p: Path): (n: nat)
    ensures n > 0 ==> IsDir(fs, p) || IsFile(fs, p)
    ensures IsFile(fs, p) ==> n == fs[p].size
    ensures IsDir(fs, p) ==> n == fs[p].treeSize
  {
    if IsDir(fs, p) then fs[p].treeSize
    else if IsFile(fs, p) then fs[p].size
    else 0
  }

  /** Whether deleting p succeeds: directories are removed recursively and
      files singly, anything else is a failure, and so is a path the
      platform refuses to remove. */
  predicate Removable(fs: FileSystem, locked: set<Path>, p: Path) {
    (IsDir(fs, p) || IsFile(fs, p)) && p !in locked
  }

  /** The filesystem after a batch, the bytes reclaimed, and the paths for
      which a `deletionError` was emitted, in emission order. */
  datatype Removal = Removal(fs: FileSystem, reclaimed: nat, failed: seq<Path>)

  /** removePaths: a batch containing an empty path is rejected as a whole
      before anything is measured or deleted. */
  function RemovePaths(fs: FileSystem, locked: set<Path>, paths: seq<Path>): (r: Removal)
    ensures "" in paths ==> r == Removal(fs, 0, [])
    ensures r.fs.Keys <= fs.Keys
    ensures forall q :: q in r.fs ==> r.fs[q] == fs[q]
    ensures forall q :: q in fs && q !in paths ==> q in r.fs
    ensures forall q :: q in r.failed ==> q in paths
  {
    if "" in paths then Removal(fs, 0, [])
    else RemoveEach(fs, locked, paths)
  }

  /** The deletion loop of removePaths: each path is measured just before
      its own deletion; a success adds the measured size, a failure emits one
      deletion error and the loop goes on with the next path. */
  function RemoveEach(fs: FileSystem, locked: set<Path>, paths: seq<Path>): (r: Removal)
    ensures r.fs.Keys <= fs.Keys
    ensures forall q :: q in r.fs ==> r.fs[q] == fs[q]
    ensures forall q :: q in fs && q !in paths ==> q in r.fs
    ensures forall q :: q in r.failed ==> q in paths
    ensures |r.failed| <= |paths|
    decreases |paths|
  {
    if |paths| == 0 then Removal(fs, 0, [])
    else
      var p := paths[0];
      var size := GetSize(fs, p);
      if Removable(fs, locked, p) then
        var rest := RemoveEach(fs - {p}, locked, paths[1..]);
        Removal(rest.fs, size + rest.reclaimed, rest.failed)
      else
        var rest := RemoveEach(fs, locked, paths[1..]);
        Removal(rest.fs, rest.reclaimed, [p] + rest.failed)
  }

  /** A batch of one path: it is removed, and its measured size reclaimed,
      exactly when it is removable; otherwise nothing changes and one
      deletion error names it. */
  lemma RemoveSingle(fs: FileSystem, locked: set<Path>, p: Path)
    requires p != ""
    ensures var r := RemovePaths(fs, locked, [p]);
      && (r.failed == [] <==> Removable(fs, locked, p))
      && (Removable(fs, locked, p) ==> r.fs == fs - {p} && r.reclaimed == GetSize(fs, p))
      && (!Removable(fs, locked, p) ==> r == Removal(fs, 0, [p]))
  {
    assert "" !in [p];
    assert [p][1..] == [];
    if Removable(fs, locked, p) {
      assert RemoveEach(fs - {p}, locked, []) == Removal(fs - {p}, 0, []);
    } else {
      assert RemoveEach(fs, locked, []) == Removal(fs, 0, []);
    }
  }

  /** The paths of a batch whose deletion succeeds, in batch order. */
  function Succeeding(fs: FileSystem, locked: set<Path>, paths: seq<Path>): seq<Path> {
    if |paths| == 0 then []
    else (if Removable(fs, locked, paths[0]) then [paths[0]] else []) + Succeeding(fs, locked, paths[1..])
  }

  /** The paths of a batch whose deletion fails, in batch order. */
  function Failing(fs: FileSystem, locked: set<Path>, paths: seq<Path>): seq<Path> {
    if |paths| == 0 then []
    else (if Removable(fs, locked, paths[0]) then [] else [paths[0]]) + Failing(fs, locked, paths[1..])
  }

  /** The total size of a list of paths, measured on one filesystem. */
  function SumSizes(fs: FileSystem, paths: seq<Path>): nat {
    if |paths| == 0 then 0 else GetSize(fs, paths[0]) + SumSizes(fs, paths[1..])
  }

  /** Two filesystems that agree on every path of a list. */
  predicate AgreeOn(fs: FileSystem, fs': FileSystem, paths: seq<Path>) {
    forall q :: q in paths ==> (q in fs <==> q in fs') && (q in fs ==> fs[q] == fs'[q])
  }

  lemma {:induction false} AgreeOnMeasures(fs: FileSystem, fs': FileSystem, locked: set<Path>, paths: seq<Path>)
    requires AgreeOn(fs, fs', paths)
    ensures Succeeding(fs, locked, paths) == Succeeding(fs', locked, paths)
    ensures Failing(fs, locked, paths) == Failing(fs', locked, paths)
    ensures SumSizes(fs, paths) == SumSizes(fs', paths)
  {
    if |paths| > 0 {
      AgreeOnMeasures(fs, fs', locked, paths[1..]);
    }
  }

  lemma {:induction false} SucceedingInBatch(fs: FileSystem, locked: set<Path>, paths: seq<Path>)
    ensures forall q :: q in Succeeding(fs, locked, paths) ==> q in paths
  {
    if |paths| > 0 {
      SucceedingInBatch(fs, locked, paths[1..]);
    }
  }

  /** The deletion loop on a batch without repeated paths: the bytes
      reclaimed are the sizes of exactly the paths whose deletion succeeds
      (each measured before the batch started), the deletion errors name
      exactly the other paths in batch order, and the filesystem loses
      exactly the deleted paths. */
  lemma {:induction false} RemoveEachExact(fs: FileSystem, locked: set<Path>, paths: seq<Path>)
    requires Distinct(paths)
    ensures RemoveEach(fs, locked, paths).reclaimed == SumSizes(fs, Succeeding(fs, locked, paths))
    ensures RemoveEach(fs, locked, paths).failed == Failing(fs, locked, paths)
    ensures RemoveEach(fs, locked, paths).fs == fs - Elems(Succeeding(fs, locked, paths))
    decreases |paths|, 1
  {
    if |paths| == 0 {
      assert fs - Elems(Succeeding(fs, locked, paths)) == fs;
    } else {
      var p := paths[0];
      var tail := paths[1..];
      assert p !in tail;
      if Removable(fs, locked, p) {
        RemovedHead(fs, locked, paths);
      } else {
        RemoveEachExact(fs, locked, tail);
        assert Succeeding(fs, locked, paths) == Succeeding(fs, locked, tail);
        assert Failing(fs, locked, paths) == [p] + Failing(fs, locked, tail);
      }
    }
  }

  /** The step of RemoveEachExact where the first path is deleted. */
  lemma {:induction false} RemovedHead(fs: FileSystem, locked: set<Path>, paths: seq<Path>)
    requires Distinct(paths) && |paths| > 0 && Removable(fs, locked, paths[0])
    ensures RemoveEach(fs, locked, paths).reclaimed == SumSizes(fs, Succeeding(fs, locked, paths))
    ensures RemoveEach(fs, locked, paths).failed == Failing(fs, locked, paths)
    ensures RemoveEach(fs, locked, paths).fs == fs - Elems(Succeeding(fs, locked, paths))
    decreases |paths|, 0
  {
    var p := paths[0];
    var tail := paths[1..];
    assert p !in tail;
    var fs1 := fs - {p};
    var rest := RemoveEach(fs1, locked, tail);
    assert RemoveEach(fs, locked, paths) == Removal(rest.fs, GetSize(fs, p) + rest.reclaimed, rest.failed);
    RemoveEachExact(fs1, locked, tail);
    assert AgreeOn(fs, fs1, tail);
    AgreeOnMeasures(fs, fs1, locked, tail);
    var S := Succeeding(fs, locked, tail);
    SucceedingInBatch(fs, locked, tail);
    assert AgreeOn(fs, fs1, S);
    AgreeOnMeasures(fs, fs1, locked, S);
    assert Succeeding(fs, locked, paths) == [p] + S;
    assert Failing(fs, locked, paths) == Failing(fs, locked, tail);
    assert SumSizes(fs, [p] + S) == GetSize(fs, p) + SumSizes(fs, S);
    ElemsCons([p] + S);
    assert ([p] + S)[1..] == S;
    assert rest.fs == fs1 - Elems(S);
    assert fs1 - Elems(S) == fs - Elems([p] + S);
  }

  lemma SumSizesCons(fs: FileSystem, paths: seq<Path>)
    requires |paths| > 0
    ensures SumSizes(fs, paths) == GetSize(fs, paths[0]) + SumSizes(fs, paths[1..])
  {
  }

  /** removePaths on a well-formed batch without repeated paths returns the
      summed sizes of the paths it managed to delete, emits one deletion
      error per failing path, and every path lands on exactly one side. */
  lemma RemovePathsExact(fs: FileSystem, locked: set<Path>, paths: seq<Path>)
    requires "" !in paths
    requires Distinct(paths)
    ensures RemovePaths(fs, locked, paths).reclaimed == SumSizes(fs, Succeeding(fs, locked, paths))
    ensures RemovePaths(fs, locked, paths).failed == Failing(fs, locked, paths)
    ensures RemovePaths(fs, locked, paths).fs == fs - Elems(Succeeding(fs, locked, paths))
    ensures |Succeeding(fs, locked, paths)| + |Failing(fs, locked, paths)| == |paths|
  {
    RemoveEachExact(fs, locked, paths);
    PartitionCount(fs, locked, paths);
  }

  lemma {:induction false} PartitionCount(fs: FileSystem, locked: set<Path>, paths: seq<Path>)
    ensures |Succeeding(fs, locked, paths)| + |Failing(fs, locked, paths)| == |paths|
  {
    if |paths| > 0 {
      PartitionCount(fs, locked, paths[1..]);
    }
  }

  /** The loop's reclaimed bytes and deletion errors depend only on what the
      filesystem holds at the batch's own paths. */
  lemma {:induction false} RemoveEachLocal(fs: FileSystem, fs': FileSystem, locked: set<Path>, paths: seq<Path>)
    requires AgreeOn(fs, fs', paths)
    ensures RemoveEach(fs, locked, paths).reclaimed == RemoveEach(fs', locked, paths).reclaimed
    ensures RemoveEach(fs, locked, paths).failed == RemoveEach(fs', locked, paths).failed
  {
    if |paths| > 0 {
      var p := paths[0];
      if Removable(fs, locked, p) {
        RemoveEachLocal(fs - {p}, fs' - {p}, locked, paths[1..]);
      } else {
        RemoveEachLocal(fs, fs', locked, paths[1..]);
      }
    }
  }

  /** Every listed path that is removable when the loop starts is gone
      when it ends, whatever else the batch holds. */
  lemma {:induction false} RemoveEachRemoves(fs: FileSystem, locked: set<Path>, paths: seq<Path>, p: Path)
    requires p in paths && Removable(fs, locked, p)
    ensures p !in RemoveEach(fs, locked, paths).fs
    decreases |paths|
  {
    var q := paths[0];
    if q != p {
      assert p in paths[1..];
      if Removable(fs, locked, q) {
        RemoveEachRemoves(fs - {q}, locked, paths[1..], p);
      } else {
        RemoveEachRemoves(fs, locked, paths[1..], p);
      }
    }
  }

  /** Two filesystems that agree on every path of a set. */
  predicate AgreeAt(fs: FileSystem, fs': FileSystem, ps: set<Path>) {
    forall q :: q in ps ==> (q in fs <==> q in fs') && (q in fs ==> fs[q] == fs'[q])
  }

  /** A batch whose paths all lie in a set where two filesystems agree
      reclaims and reports the same on both, and leaves them agreeing there. */
  lemma {:induction false} RemoveEachAgree(fs: FileSystem, fs': FileSystem, locked: set<Path>,
                                          paths: seq<Path>, ps: set<Path>)
    requires AgreeAt(fs, fs', ps) && Elems(paths) <= ps
    ensures var r := RemoveEach(fs, locked, paths);
      var r' := RemoveEach(fs', locked, paths);
      r.reclaimed == r'.reclaimed && r.failed == r'.failed && AgreeAt(r.fs, r'.fs, ps)
    decreases |paths|
  {
    if |paths| > 0 {
      var p := paths[0];
      assert p in Elems(paths);
      assert Elems(paths[1..]) <= ps by {
        forall q | q in Elems(paths[1..]) ensures q in Elems(paths) {
          assert q in paths[1..];
        }
      }
      if Removable(fs, locked, p) {
        RemoveEachAgree(fs - {p}, fs' - {p}, locked, paths[1..], ps);
      } else {
        RemoveEachAgree(fs, fs', locked, paths[1..], ps);
      }
    }
  }

  lemma RemovePathsAgree(fs: FileSystem, fs': FileSystem, locked: set<Path>, paths: seq<Path>, ps: set<Path>)
    requires AgreeAt(fs, fs', ps) && Elems(paths) <= ps
    ensures var r := RemovePaths(fs, locked, paths);
      var r' := RemovePaths(fs', locked, paths);
      r.reclaimed == r'.reclaimed && r.failed == r'.failed && AgreeAt(r.fs, r'.fs, ps)
  {
    if "" !in paths {
      RemoveEachAgree(fs, fs', locked, paths, ps);
    }
  }
}

=== FILE: totals.dfy ===
/** The aggregate totals of the registry (`MModel::calculateTotal`): one
    pass over every entry, summing each category over all entries and, for
    entries that are not installed, counting them and summing their
    categories again.

    The reference definition `SumOver` sums a measure over a set of keys
    without fixing any order; the pass itself walks the keys in the map's
    iteration order, which is passed in. */
module Totals {
  import opened Common
  import opened Entries

  datatype Totals = Totals(
    unusedAppsCount: nat,
    totalConfigSize: nat,
    totalCacheSize: nat,
    totalLocalDataSize: nat,
    unusedConfigSize: nat,
    unusedCacheSize: nat,
    unusedLocalDataSize: nat)
  {
    /** The field that aggregates a measure. */
    function Get(m: Measure): nat {
      match m
      case Total(Config) => totalConfigSize
      case Total(Cache) => totalCacheSize
      case Total(LocalData) => totalLocalDataSize
      case Unused(Config) => unusedConfigSize
      case Unused(Cache) => unusedCacheSize
      case Unused(LocalData) => unusedLocalDataSize
      case UnusedCount => unusedAppsCount
    }
  }

  const Zero: Totals := Totals(0, 0, 0, 0, 0, 0, 0)

  /** What a total aggregates: a category over all entries, a category over
      uninstalled entries, or the number of uninstalled entries. */
  datatype Measure = Total(c: Category) | Unused(c: Category) | UnusedCount

  /** One entry's share of a measure. */
  function Weigh(e: Entry, m: Measure): nat {
    match m
    case Total(c) => e.sizes.Get(c)
    case Unused(c) => if e.installed then 0 else e.sizes.Get(c)
    case UnusedCount => if e.installed then 0 else 1
  }

  /** The sum of a measure over a set of keys, in no particular order. */
  ghost function SumOver(entries: map<Name, Entry>, keys: set<Name>, m: Measure): nat
    requires keys <= entries.Keys
    decreases keys
  {
    if keys == {} then 0
    else
      var k :| k in keys;
      Weigh(entries[k], m) + SumOver(entries, keys - {k}, m)
  }

  /** The sum does not depend on which key is taken first. */
  lemma {:induction false} SumOverPick(entries: map<Name, Entry>, keys: set<Name>, m: Measure, x: Name)
    requires keys <= entries.Keys
    requires x in keys
    ensures SumOver(entries, keys, m) == Weigh(entries[x], m) + SumOver(entries, keys - {x}, m)
    decreases keys
  {
    var k :| k in keys && SumOver(entries, keys, m) == Weigh(entries[k], m) + SumOver(entries, keys - {k}, m);
    if k != x {
      SumOverPick(entries, keys - {k}, m, x);
      SumOverPick(entries, keys - {x}, m, k);
      assert keys - {k} - {x} == keys - {x} - {k};
    }
  }

  /** Every total agrees with the order-free sum of its measure over all
      entries. */
  ghost predicate Agree(t: Totals, entries: map<Name, Entry>) {
    forall m :: t.Get(m) == SumOver(entries, entries.Keys, m)
  }

  /** The loop body at one entry. `swapped` reproduces the source as
      written, which adds config sizes into the local-data total and
      local-data sizes into the config total. */
  function Add(t: Totals, e: Entry, swapped: bool): Totals {
    Totals(
      t.unusedAppsCount + (if e.installed then 0 else 1),
      t.totalConfigSize + (if swapped then e.sizes.localData else e.sizes.config),
      t.totalCacheSize + e.sizes.cache,
      t.totalLocalDataSize + (if swapped then e.sizes.config else e.sizes.localData),
      t.unusedConfigSize + (if e.installed then 0 else e.sizes.config),
      t.unusedCacheSize + (if e.installed then 0 else e.sizes.cache),
      t.unusedLocalDataSize + (if e.installed then 0 else e.sizes.localData))
  }

  /** The loop over the entries, in iteration order. */
  function Tally(entries: map<Name, Entry>, order: seq<Name>, swapped: bool): Totals
    requires Elems(order) <= entries.Keys
    decreases |order|
  {
    if |order| == 0 then Zero
    else Add(Tally(entries, order[1..], swapped), entries[order[0]], swapped)
  }

  /** Which measure the source adds into the field that aggregates `m`. */
  function AsWrittenMeasure(m: Measure): Measure {
    match m
    case Total(Config) => Total(LocalData)
    case Total(LocalData) => Total(Config)
    case _ => m
  }

  lemma {:induction false} TallySum(entries: map<Name, Entry>, order: seq<Name>, swapped: bool, m: Measure)
    requires Distinct(order) && Elems(order) <= entries.Keys
    ensures Tally(entries, order, swapped).Get(m)
            == SumOver(entries, Elems(order), if swapped then AsWrittenMeasure(m) else m)
    decreases |order|
  {
    var m' := if swapped then AsWrittenMeasure(m) else m;
    if |order| == 0 {
      assert Elems(order) == {};
    } else {
      var k := order[0];
      assert k !in order[1..];
      ElemsCons(order);
      assert Elems(order) - {k} == Elems(order[1..]);
      TallySum(entries, order[1..], swapped, m);
      SumOverPick(entries, Elems(order), m', k);
      AddWeighs(Tally(entries, order[1..], swapped), entries[k], swapped, m);
    }
  }

  lemma AddWeighs(t: Totals, e: Entry, swapped: bool, m: Measure)
    ensures Add(t, e, swapped).Get(m) == t.Get(m) + Weigh(e, if swapped then AsWrittenMeasure(m) else m)
  {
  }

  /** calculateTotal, corrected: every total is the sum of its own measure
      over all entries, whatever the iteration order. */
  function CalculateTotal(entries: map<Name, Entry>, order: seq<Name>): (t: Totals)
    requires IsEnumeration(order, entries.Keys)
    ensures Agree(t, entries)
  {
    var t := Tally(entries, order, false);
    assert forall m :: t.Get(m) == SumOver(entries, entries.Keys, m) by {
      forall m ensures t.Get(m) == SumOver(entries, entries.Keys, m) {
        TallySum(entries, order, false, m);
      }
    }
    t
  }

  /** What the source's totals satisfy: the config and local-data totals
      trade places, every other total is the sum of its own measure. */
  ghost predicate AgreeAsWritten(t: Totals, entries: map<Name, Entry>) {
    forall m :: t.Get(m) == SumOver(entries, entries.Keys, AsWrittenMeasure(m))
  }

  /** calculateTotal as written: the config total sums the local-data
      sizes and the local-data total sums the config sizes; every other
      total is the sum of its own measure. */
  function CalculateTotalAsWritten(entries: map<Name, Entry>, order: seq<Name>): (t: Totals)
    requires IsEnumeration(order, entries.Keys)
    ensures t.totalConfigSize == SumOver(entries, entries.Keys, Total(LocalData))
    ensures t.totalLocalDataSize == SumOver(entries, entries.Keys, Total(Config))
    ensures forall m :: m != Total(Config) && m != Total(LocalData) ==> t.Get(m) == SumOver(entries, entries.Keys, m)
    ensures AgreeAsWritten(t, entries)
  {
    var t := Tally(entries, order, true);
    TallySum(entries, order, true, Total(Config));
    TallySum(entries, order, true, Total(LocalData));
    assert forall m :: t.Get(m) == SumOver(entries, entries.Keys, AsWrittenMeasure(m)) by {
      forall m ensures t.Get(m) == SumOver(entries, entries.Keys, AsWrittenMeasure(m)) {
        TallySum(entries, order, true, m);
      }
    }
    t
  }

  /** The as-written totals disagree with the entries as soon as one entry
      has config data and no local data: a single uninstalled entry with a
      100-byte config directory is reported with a config total of 0 and a
      local-data total of 100. */
  lemma SwappedTotalsMisreport()
    ensures var entries := map["harbour-foo" := Fresh.(sizes := PerCategory(100, 0, 0))];
      var t := CalculateTotalAsWritten(entries, ["harbour-foo"]);
      && t.totalConfigSize == 0 && t.totalLocalDataSize == 100
      && !Agree(t, entries)
  {
    var entries := map["harbour-foo" := Fresh.(sizes := PerCategory(100, 0, 0))];
    assert IsEnumeration(["harbour-foo"], entries.Keys) by {
      assert Elems(["harbour-foo"]) == {"harbour-foo"};
    }
    var t := CalculateTotalAsWritten(entries, ["harbour-foo"]);
    SumOverPick(entries, entries.Keys, Total(Config), "harbour-foo");
    SumOverPick(entries, entries.Keys, Total(LocalData), "harbour-foo");
    assert entries.Keys - {"harbour-foo"} == {};
    assert t.Get(Total(Config)) != SumOver(entries, entries.Keys, Total(Config));
  }

  /** The totals are fixed by the entries: two totals that both agree with
      the same entries are equal. */
  lemma AgreeUnique(t1: Totals, t2: Totals, entries: map<Name, Entry>)
    requires Agree(t1, entries) && Agree(t2, entries)
    ensures t1 == t2
  {
    assert t1.Get(UnusedCount) == t2.Get(UnusedCount);
    assert t1.Get(Total(Config)) == t2.Get(Total(Config));
    assert t1.Get(Total(Cache)) == t2.Get(Total(Cache));
    assert t1.Get(Total(LocalData)) == t2.Get(Total(LocalData));
    assert t1.Get(Unused(Config)) == t2.Get(Unused(Config));
    assert t1.Get(Unused(Cache)) == t2.Get(Unused(Cache));
    assert t1.Get(Unused(LocalData)) == t2.Get(Unused(LocalData));
  }

  /** The corrected pass gives the same totals in any iteration order. */
  lemma CalculateTotalOrderFree(entries: map<Name, Entry>, order1: seq<Name>, order2: seq<Name>)
    requires IsEnumeration(order1, entries.Keys) && IsEnumeration(order2, entries.Keys)
    ensures CalculateTotal(entries, order1) == CalculateTotal(entries, order2)
  {
    AgreeUnique(CalculateTotal(entries, order1), CalculateTotal(entries, order2), entries);
  }
}
